=== FILE: README.md ===
# Online auction system: a Dafny model of the bidding core

This project models the core of a console auction system written in Java
on top of MongoDB:

- the auction state machine of `AuctionServiceImpl` and `Auction`:
  - placing a bid, with its guards and its time-extension rule;
  - ending an auction by hand;
  - the expiry sweep;
  - the auction document codec;
- how an administrator opens an auction on an available product
  (`AdminServiceImpl.createNewAuction`);
- the winner rule, as printed by `WinnerAnnouncementUtils` and by the
  auction history;
- the smaller services that feed the core:
  - the `InputUtils` validators and the multi-product selection parser;
  - the buyer's time-left label, purchase quantities, stock update,
    payment menu, filters and bid pre-check;
  - the product catalogue (categories, mark-as-sold, queries, codec);
  - user registration, authentication and decoding;
  - the administrator's user queries.

Each service call is a pure function. It takes the relevant collections
as values and returns either the new collections or an error:

- auctions and bids form a `Store`, two maps keyed by id;
- users and products are sequences of documents, in collection order,
  so `find(...).first()` means "the first matching document".

Conventions:

- The clock is a parameter `now`. Time is whole seconds, and
  `plusMinutes(m)` adds `60 * m`.
- Money is integer cents.
- Fresh ids and BCrypt salts are parameters.
- BCrypt is an abstract `Hasher`. A ghost predicate `Sound` states the
  one property the proofs need: a password verifies against its own hash.

The modules follow the source:

| module | file | models |
|---|---|---|
| `Auctions` | auctions.dfy | `Auction` and `Bid` models: constructors, `hasEnded`, `hasExpired`, `isRunning`, `getWinnerId` |
| `AuctionService` | auction_service.dfy | `AuctionServiceImpl`: create, place bid, end, sweeps, active query, codec |
| `AuctionInvariants` | auction_invariants.dfy | the store invariant every reachable store keeps, and what follows from it |
| `Winners` | winners.dfy | `WinnerAnnouncementUtils` |
| `Admin` | admin.dfy | `AdminServiceImpl`: opening an auction, user queries, auction history winner column |
| `Buyer` | buyer.dfy | `BuyerServiceImpl`: time left, purchase, payment, filters, bid pre-check |
| `Catalog` | catalog.dfy | `Product` and `ProductServiceImpl` |
| `Users` | users.dfy | `User` subclasses and `UserServiceImpl` |
| `Input` | input.dfy | `InputUtils` |
| `Decimal`, `Seqs`, `Wrappers` | decimal.dfy, seqs.dfy, wrappers.dfy | decimal numerals, filtering and menu picks, `Option`/`Result` |

A few behaviours of the code are easy to misread. The model keeps each
one as the code has it:

- `placeBid` tests only the `isActive` flag and never the status
  (AuctionServiceImpl.java:159). An auction stored active with a status
  other than `ACTIVE` is missing from `getActiveAuctions` but still takes
  bids (`AuctionService.ListedAuctionPassesActivityGuard`).
- `hasEnded` is the strict `now.isAfter(endTime)` (Auction.java:196). So
  a bid placed exactly at the end time is accepted, and the sweep does not
  close the auction at that instant either
  (`AuctionService.BoundaryAtEndTime`).
- The status is a free string. The code writes only `PENDING`, `ACTIVE`
  and `COMPLETED`, and any other stored string decodes to `Other(name)`.
- `placeBid` reads the auction, changes it and writes it back with no
  version check (AuctionServiceImpl.java:150-210). The model has no
  concurrency, so every call is one atomic step (see Left out).
- `endAuction` refuses only an auction whose `isCompleted` flag is set
  (AuctionServiceImpl.java:253). It does not check `isActive`.
- `updateOne`, `replaceOne` and `find(...).first()` act on the first
  matching document. So `markProductAsSold` and `updateProduct` change only
  the first document with the id, and a document with the same id further
  down is left as it was.

Where a constant or ordering matters, the model keeps the code's:

- the recent-bid history shows at most three bids;
- an auction document without `durationMinutes` decodes to 60 minutes;
- a product document without `quantity` decodes to 1;
- `getTimeLeft` truncates toward zero;
- the categories listing uses `String.compareTo` order.

## Model

| member | source | states |
|---|---|---|
| Auctions.BlankAuction | src/main/java/com/auction/models/Auction.java:27-34 | a new auction is Pending, neither active nor completed, has no bids or bidder, and has no start or end time |
| Auctions.ListedAuction | src/main/java/com/auction/models/Auction.java:37-46 | the listing constructor keeps the product, seller, price and times; the highest bid starts at the starting price; the auction is Pending with no bids |
| Auctions.WinnerId | src/main/java/com/auction/models/Auction.java:171-176 | a winner id exists exactly when the auction has expired, a bidder is recorded and the highest bid beats the starting price; it is the recorded bidder |
| Auctions.NewBid | src/main/java/com/auction/models/Bid.java:18-31 | a new bid is not winning, is stamped with the current time, and keeps its auction, bidder and amount |
| Auctions.EndIsExclusive | src/main/java/com/auction/models/Auction.java:195-197 | at exactly the end time an auction has neither ended nor expired; one second later it has ended |
| Auctions.ExpiredIffEnded | src/main/java/com/auction/models/Auction.java:164-197 | hasExpired and hasEnded agree whenever the end time is set |
| Auctions.IsRunning | src/main/java/com/auction/models/Auction.java:186-189 | the times are read only for an active auction; a running auction is active, has started strictly before now, has not expired and has no winner; an active auction past its end time is not running; an active, started, unexpired auction is running exactly when now is not its end time |
| Auctions.InactiveNeverRunning | src/main/java/com/auction/models/Auction.java:186-189 | a blank or freshly listed auction is inactive and so never running |
| Auctions.RunningHasNoWinner | src/main/java/com/auction/models/Auction.java:171-189 | a running auction has not ended and has no winner id |
| Auctions.ListedAuctionHasNoWinner | src/main/java/com/auction/models/Auction.java:37-46 | a freshly listed auction has no winner at any time |
| AuctionService.Close | src/main/java/com/auction/services/impl/AuctionServiceImpl.java:257-260 | closing sets completed, clears active, sets status Completed, and changes no other field |
| AuctionService.CreateAuction | src/main/java/com/auction/services/impl/AuctionServiceImpl.java:40-49 | insertion fails with a duplicate key exactly when the id is taken; otherwise it adds that one auction and leaves the rest and the bids alone |
| AuctionService.Demote | src/main/java/com/auction/services/impl/AuctionServiceImpl.java:190-193 | every bid on the auction loses its winning flag; bids on other auctions are untouched |
| AuctionService.PlaceBid | src/main/java/com/auction/services/impl/AuctionServiceImpl.java:150-210 | the error for each guard in source order (not found, not active, no end time, ended, too low, duplicate bid id); on success the highest bid, bidder and bid count are updated; the end time is reset to now plus the duration; the new bid is the only winning bid of its auction; other auctions and bids keep their values |
| AuctionService.EndAuction | src/main/java/com/auction/services/impl/AuctionServiceImpl.java:245-270 | fails when the id is missing or the auction is already completed, and succeeds otherwise; on success only that auction changes, and it is closed |
| AuctionService.CheckAndUpdateExpired | src/main/java/com/auction/services/impl/AuctionServiceImpl.java:273-289 | every active auction past its end time is closed; every other auction and every bid is unchanged |
| AuctionService.CheckAndGetNewlyCompleted | src/main/java/com/auction/services/impl/AuctionServiceImpl.java:292-314 | reports exactly the auctions due for closing, each as the closed form of its stored record, which is also what is stored; every other auction is unchanged |
| AuctionService.ListedAuctionPassesActivityGuard | src/main/java/com/auction/services/impl/AuctionServiceImpl.java:106-161 | a bid on an auction in the active listing is never refused as unknown or inactive; an auction missing from the listing is refused so, or is stored with a status other than Active |
| AuctionService.BidDeadlineMatchesSweep | src/main/java/com/auction/services/impl/AuctionServiceImpl.java:163-165 | for an active auction, the bid guard's "has ended" test and the sweep's query select the same moments |
| AuctionService.BoundaryAtEndTime | src/main/java/com/auction/services/impl/AuctionServiceImpl.java:163-165 | a bid placed exactly at the end time is accepted, and a sweep at that instant does not close the auction |
| AuctionService.AcceptedBidSurvivesSweep | src/main/java/com/auction/services/impl/AuctionServiceImpl.java:183-187 | right after an accepted bid, a sweep at the same instant does not close the auction, given a non-negative duration |
| AuctionService.EndAuctionTwiceFails | src/main/java/com/auction/services/impl/AuctionServiceImpl.java:253-255 | ending an auction a second time fails with "already completed" |
| AuctionService.BidAfterEndAuctionRejected | src/main/java/com/auction/services/impl/AuctionServiceImpl.java:159-161 | once an auction has been ended by hand, every bid on it is rejected as not active |
| AuctionService.SweepIdempotent | src/main/java/com/auction/services/impl/AuctionServiceImpl.java:292-314 | a second sweep at the same instant reports nothing and changes nothing |
| AuctionService.SweepsAgree | src/main/java/com/auction/services/impl/AuctionServiceImpl.java:279-310 | both sweeps leave the store in the same state |
| AuctionService.ActiveAfterSweepNotDue | src/main/java/com/auction/services/impl/AuctionServiceImpl.java:102-115 | after a sweep, no auction in the active listing is past its end time |
| AuctionService.DecodeAuction | src/main/java/com/auction/services/impl/AuctionServiceImpl.java:355-402 | decoding fails exactly when a price field is missing; missing flags, bid count and duration take their defaults (false, 0, 60) |
| AuctionService.DecodeEncodeAuction | src/main/java/com/auction/services/impl/AuctionServiceImpl.java:319-350 | decoding an encoded auction gives back the same auction |
| AuctionInvariants.PlaceBidKeepsTargetConsistent | src/main/java/com/auction/services/impl/AuctionServiceImpl.java:174-199 | after an accepted bid the target auction is still consistent with its bids: the count matches the stored bids; no bid exceeds the highest bid; only the top bid wins, and its bidder is recorded |
| AuctionInvariants.PlaceBidPreservesInv | src/main/java/com/auction/services/impl/AuctionServiceImpl.java:150-210 | an accepted bid keeps the store invariant |
| AuctionInvariants.EndAuctionPreservesInv | src/main/java/com/auction/services/impl/AuctionServiceImpl.java:245-270 | ending an auction keeps the store invariant |
| AuctionInvariants.SweepPreservesInv | src/main/java/com/auction/services/impl/AuctionServiceImpl.java:273-289 | the expiry sweep keeps the store invariant |
| AuctionInvariants.CreatePreservesInv | src/main/java/com/auction/services/impl/AdminServiceImpl.java:153-172 | inserting a newly opened auction keeps the store invariant |
| AuctionInvariants.StepPreservesInv | src/main/java/com/auction/services/impl/AuctionServiceImpl.java:150-314 | every operation, whether it succeeds or fails, keeps the store invariant |
| AuctionInvariants.RunPreservesInv | src/main/java/com/auction/services/impl/AuctionServiceImpl.java:150-314 | any sequence of operations keeps the store invariant |
| AuctionInvariants.ReachableStoresAreConsistent | src/main/java/com/auction/services/impl/AuctionServiceImpl.java:150-314 | every store reachable from the empty store satisfies the invariant |
| AuctionInvariants.StepKeepsAuctionsAndRaisesBids | src/main/java/com/auction/services/impl/AuctionServiceImpl.java:167-177 | no operation deletes an auction, lowers its highest bid or changes its starting price |
| AuctionInvariants.RunKeepsAuctionsAndRaisesBids | src/main/java/com/auction/services/impl/AuctionServiceImpl.java:167-177 | over any run an auction stays present, its highest bid never falls, and its starting price never changes |
| AuctionInvariants.ActiveNeverCompleted | src/main/java/com/auction/services/impl/AuctionServiceImpl.java:257-260 | in a reachable store no auction is both active and completed |
| AuctionInvariants.CompletedAuctionFrozen | src/main/java/com/auction/services/impl/AuctionServiceImpl.java:253-255 | no operation changes a completed auction |
| AuctionInvariants.CompletedAuctionStaysFrozen | src/main/java/com/auction/services/impl/AuctionServiceImpl.java:253-255 | a completed auction stays exactly as it is over any run |
| AuctionInvariants.WinnerIffBids | src/main/java/com/auction/models/Auction.java:171-176 | in a reachable store an auction has a winning bid exactly when its bid count is positive, which is exactly when bids are stored for it |
| AuctionInvariants.AnnouncedWinnerHoldsWinningBid | src/main/java/com/auction/services/impl/AuctionServiceImpl.java:190-199 | the winner announced for a swept auction is the bidder of a stored winning bid of that amount |
| Winners.Announce | src/main/java/com/auction/utils/WinnerAnnouncementUtils.java:57-102 | the report fails when the product id is missing, or when the product exists but the end time is missing; it is empty when the product is gone; otherwise a winner is announced exactly when the winner rule holds, with the recorded bidder, amount and bid count |
| Winners.SimpleNotification | src/main/java/com/auction/utils/WinnerAnnouncementUtils.java:135-153 | the notice fails exactly when the product id is missing; otherwise it names a winner exactly when the winner rule holds |
| Winners.AnnouncementsAgree | src/main/java/com/auction/utils/WinnerAnnouncementUtils.java:140-148 | the full announcement and the one-line notification agree on whether there is a winner and on who it is |
| Winners.StartingPriceMeansNoWinner | src/main/java/com/auction/utils/WinnerAnnouncementUtils.java:74-93 | an auction whose highest bid equals the starting price has no winner in either report |
| Winners.RecentBids | src/main/java/com/auction/utils/WinnerAnnouncementUtils.java:106-130 | with at most one bid nothing is shown; otherwise the newest min(n, 3) bids are shown, in listing order |
| Winners.ShowPendingAnnouncements | src/main/java/com/auction/utils/WinnerAnnouncementUtils.java:158-163 | for an admin or a buyer the sweep reports exactly the auctions due for closing, each as the closed form of its stored record, stores that closed form, and leaves every other auction and every bid unchanged; for any other role the store is unchanged |
| Winners.SellerSweepsNothing | src/main/java/com/auction/utils/WinnerAnnouncementUtils.java:158-163 | a seller's dashboard never changes the store |
| Winners.AnnouncedWinnerIsWinnerId | src/main/java/com/auction/utils/WinnerAnnouncementUtils.java:31-42 | for every swept auction, the announcement's winner agrees with `getWinnerId` |
| Admin.InitialAuction | src/main/java/com/auction/services/impl/AdminServiceImpl.java:153-167 | the auction opened on a product starts active, at the starting price, with no bids and no winner, and ends the chosen number of minutes from now |
| Admin.ReplaceById | src/main/java/com/auction/services/impl/ProductServiceImpl.java:42-51 | replacing by id rewrites only the first document with that id and keeps every other document and the length |
| Admin.CreateNewAuction | src/main/java/com/auction/services/impl/AdminServiceImpl.java:120-187 | the outcome of each step in order (listing failure, empty listing, invalid choice, store failure); on success the chosen product was offered, the store gains the opened auction, and the product is saved as unavailable |
| Admin.CreatedAuctionWithdrawsProduct | src/main/java/com/auction/services/impl/AdminServiceImpl.java:169-172 | after an auction is opened, product ids stay unique, and the product is still stored but no longer matches the available-products query |
| Admin.OpenedAuctionAcceptsFirstBid | src/main/java/com/auction/services/impl/AdminServiceImpl.java:153-172 | with a non-negative duration, a first bid above the starting price is accepted at once |
| Admin.NegativeDurationRefusesBids | src/main/java/com/auction/services/impl/AdminServiceImpl.java:153-167 | with a negative duration the opened auction refuses every bid as ended |
| Admin.DecodeListedUser | src/main/java/com/auction/services/impl/AdminServiceImpl.java:560-601 | decoding fails exactly on an unknown role; otherwise it keeps the identity fields, gives the role a fresh profile, and makes the account active unless it is explicitly false |
| Admin.DecodersAgree | src/main/java/com/auction/services/impl/AdminServiceImpl.java:560-601 | the admin's decoder and the user service's decoder accept the same documents and differ only in the role profile |
| Admin.UsersByRole | src/main/java/com/auction/services/impl/AdminServiceImpl.java:539-555 | a valid role always lists successfully; an invalid one fails exactly when some document carries it; every listed user has the requested role; the decoding of every document with the role is listed |
| Admin.UsersByRolePosition | src/main/java/com/auction/services/impl/AdminServiceImpl.java:539-555 | listed user k is the decoding of the stored document that has the role and has exactly k such documents before it |
| Admin.UsersByRoleAppend | src/main/java/com/auction/services/impl/AdminServiceImpl.java:543-547 | listing two runs of documents gives the first run's users followed by the second's |
| Admin.UsersByRoleSingle | src/main/java/com/auction/services/impl/AdminServiceImpl.java:543-547 | one decodable document is listed exactly when its role field is the requested role |
| Admin.UsersByRoleCount | src/main/java/com/auction/services/impl/AdminServiceImpl.java:539-555 | the listing holds exactly as many users as there are documents with that role |
| Admin.HasAnyAdmin | src/main/java/com/auction/services/impl/AdminServiceImpl.java:604-611 | true exactly when some document has role ADMIN |
| Admin.AdminCount | src/main/java/com/auction/services/impl/AdminServiceImpl.java:614-621 | the number of ADMIN documents; it is positive exactly when an admin exists |
| Admin.FindUserById | src/main/java/com/auction/services/impl/UserServiceImpl.java:113-122 | no user exactly when no document has the id; otherwise the outcome is that of decoding the first document with the id: it fails exactly when that decoding fails, and otherwise gives the decoded user |
| Admin.FindUserByIdAppend | src/main/java/com/auction/services/impl/UserServiceImpl.java:116-118 | the lookup takes the earliest match: over two runs of documents it looks in the second run only when the first has no document with the id |
| Admin.HistoryWinnerLabel | src/main/java/com/auction/services/impl/AdminServiceImpl.java:216-227 | the history aborts exactly when the status is missing; N/A exactly when the auction is not completed or has no bidder; otherwise "Unknown" when the bidder lookup throws, "No Winner" when the bidder is not found or the highest bid has not beaten the starting price, and the first name with the last-name initial for a found bidder who beat it ("Unknown" when the last name is empty) |
| Admin.HistoryAgreesWithAnnouncement | src/main/java/com/auction/services/impl/AdminServiceImpl.java:217-224 | for a completed auction whose bidder is found, the history names a winner exactly when the announcement does, and it is the same user |
| Admin.UnbidAuctionHasNoNamedWinner | src/main/java/com/auction/services/impl/AdminServiceImpl.java:219-226 | an auction whose highest bid has not beaten the starting price never shows a named winner; unless the bidder lookup throws, it reads N/A or "No Winner" |
| Buyer.TimeLeft | src/main/java/com/auction/services/impl/BuyerServiceImpl.java:879-895 | "EXPIRED" exactly when now is after the end; otherwise minutes, hours and minutes, or days and hours that bracket the truncated whole minutes left |
| Buyer.LabelExpiredIffPastEnd | src/main/java/com/auction/services/impl/BuyerServiceImpl.java:880-882 | the label reads EXPIRED exactly when now is after the end time |
| Buyer.LabelAtEndTime | src/main/java/com/auction/services/impl/BuyerServiceImpl.java:880-888 | at the end time the label is "0 min"; a minute later it is EXPIRED |
| Buyer.TimeLeftAgreesWithHasEnded | src/main/java/com/auction/services/impl/BuyerServiceImpl.java:880-882 | the listing shows EXPIRED exactly when the bid guard considers the auction ended |
| Buyer.PurchaseQuantity | src/main/java/com/auction/services/impl/BuyerServiceImpl.java:229-237 | a stock of at most one buys one; otherwise the entered quantity is accepted exactly when it lies in 1..stock |
| Buyer.PurchaseItems | src/main/java/com/auction/services/impl/BuyerServiceImpl.java:212-248 | the basket holds only selected products with valid quantities; it includes every single-stock product with quantity 1 and every larger-stock product with its entered quantity when that lies in 1..stock |
| Buyer.PurchaseItemsSingle | src/main/java/com/auction/services/impl/BuyerServiceImpl.java:229-245 | one selected product gives one item with the accepted quantity, or none when the quantity is refused |
| Buyer.PurchaseItemsAppend | src/main/java/com/auction/services/impl/BuyerServiceImpl.java:212-248 | items follow the selection order: two runs of selections give the first run's items followed by the second's |
| Buyer.ApplyPurchase | src/main/java/com/auction/services/impl/BuyerServiceImpl.java:306-316 | buying the whole stock marks the product sold and unavailable with today's date; buying less lowers the quantity by the amount bought; no other field changes |
| Buyer.PurchaseKeepsOfferedStockPositive | src/main/java/com/auction/services/impl/BuyerServiceImpl.java:229-316 | a purchase from positive stock never leaves an offered product with empty stock |
| Buyer.EmptyStockPurchase | src/main/java/com/auction/services/impl/BuyerServiceImpl.java:229-316 | a product offered with stock 0 sells one unit, and stays offered with stock -1 |
| Buyer.PaymentMethod | src/main/java/com/auction/services/impl/BuyerServiceImpl.java:869-877 | choices 1 to 4 select the matching method in menu order; any other choice falls back to Credit Card |
| Buyer.PaymentMethodsDistinct | src/main/java/com/auction/services/impl/BuyerServiceImpl.java:871-874 | the four menu choices name four different methods |
| Buyer.Browsable | src/main/java/com/auction/services/impl/BuyerServiceImpl.java:67-70 | the listing holds exactly the offered products, each as often as in the input |
| Buyer.RefundCandidates | src/main/java/com/auction/services/impl/BuyerServiceImpl.java:415-417 | the candidates are exactly the COMPLETED transactions, each as often as in the input |
| Buyer.RefundCandidatesKeepOrder | src/main/java/com/auction/services/impl/BuyerServiceImpl.java:415-417 | the candidates keep the stored order: two runs of transactions give the first run's candidates followed by the second's, and one transaction is a candidate exactly when it is COMPLETED |
| Buyer.RefundSelection | src/main/java/com/auction/services/impl/BuyerServiceImpl.java:443-450 | a transaction is selected exactly when the choice is in range; it is the choice-th candidate, one of the given transactions, and completed |
| Buyer.RefundSelectionPosition | src/main/java/com/auction/services/impl/BuyerServiceImpl.java:415-450 | menu entry `choice` is the stored COMPLETED transaction with exactly `choice - 1` COMPLETED transactions before it |
| Buyer.BidPreCheck | src/main/java/com/auction/services/impl/BuyerServiceImpl.java:560-585 | an out-of-range choice is invalid; a bid not above the shown highest bid is refused; otherwise the chosen auction is bid on |
| Buyer.PreCheckedBidReachesEngineChecks | src/main/java/com/auction/services/impl/BuyerServiceImpl.java:579-598 | a bid that passes the buyer's checks against a current listing can only fail in the engine as ended, with no end time, or with a duplicate id |
| Catalog.NewProduct | src/main/java/com/auction/models/Product.java:25-44 | a new product is offered and unsold, and keeps the given fields |
| Catalog.DecodeProduct | src/main/java/com/auction/services/impl/ProductServiceImpl.java:232-263 | decoding fails exactly when the price is missing; the available flag defaults to true, the sold flag to false, and the quantity to 1 |
| Catalog.DecodeAll | src/main/java/com/auction/services/impl/ProductServiceImpl.java:124-137 | a batch decodes exactly when every document has a price, and then element by element |
| Catalog.DecodeMatched | src/main/java/com/auction/services/impl/ProductServiceImpl.java:124-153 | decoding the documents a query matches succeeds exactly when each of them has a price, and then lists the decoding of each |
| Catalog.AvailableProducts | src/main/java/com/auction/services/impl/ProductServiceImpl.java:124-137 | the listing fails exactly when a document stored available and unsold lacks a price; otherwise it holds the decoding of every such document, and every listed product is offered |
| Catalog.AvailableListingPosition | src/main/java/com/auction/services/impl/ProductServiceImpl.java:124-137 | listed product k is the decoding of the stored document matching the query with exactly k matching documents before it |
| Catalog.SoldProducts | src/main/java/com/auction/services/impl/ProductServiceImpl.java:140-153 | the listing fails exactly when a document stored sold lacks a price; otherwise it holds the decoding of every such document, and every listed product is sold |
| Catalog.SoldListingPosition | src/main/java/com/auction/services/impl/ProductServiceImpl.java:140-153 | listed product k is the decoding of the stored document matching the query with exactly k matching documents before it |
| Catalog.SoldQueryMatchesDecoder | src/main/java/com/auction/services/impl/ProductServiceImpl.java:145 | the sold query matches a document exactly when its decoded product is sold |
| Catalog.AvailableQueryMatchesDecoder | src/main/java/com/auction/services/impl/ProductServiceImpl.java:129 | when both flags are stored, the available query matches exactly the documents that decode to offered products |
| Catalog.FlaglessDocumentNotListed | src/main/java/com/auction/services/impl/ProductServiceImpl.java:241-242 | a document with neither flag decodes to an offered product, yet the available query misses it |
| Catalog.DecodeEncodeProduct | src/main/java/com/auction/services/impl/ProductServiceImpl.java:199-227 | decoding an encoded product gives it back, and the available query matches it exactly when it is offered |
| Catalog.MarkProductAsSold | src/main/java/com/auction/services/impl/ProductServiceImpl.java:156-175 | the first document with the id becomes sold, unavailable and dated now, with no other field changed; every other document, including later ones with the same id, is untouched |
| Catalog.MarkedProductDecodesSold | src/main/java/com/auction/services/impl/ProductServiceImpl.java:163-169 | the first document with the id, once marked, decodes as sold and is no longer offered |
| Catalog.MarkedIdLeavesAvailableListing | src/main/java/com/auction/services/impl/ProductServiceImpl.java:163-169 | with unique ids, after marking no document with the id matches the available query, and each matches the sold query |
| Catalog.Sort | src/main/java/com/auction/services/impl/ProductServiceImpl.java:190 | sorting distinct names gives a strictly ascending permutation of them |
| Catalog.GetAllCategories | src/main/java/com/auction/services/impl/ProductServiceImpl.java:178-194 | the listing holds each category of a stored product exactly once, in ascending compareTo order |
| Catalog.SortedListingIsUnique | src/main/java/com/auction/services/impl/ProductServiceImpl.java:183-190 | two strictly ascending listings with the same elements are equal, so the categories listing is determined by the set of categories |
| Users.ParseRole | src/main/java/com/auction/services/impl/UserServiceImpl.java:224-236 | exactly ADMIN, SELLER and BUYER are roles, and each role parses from its own name |
| Users.FreshProfile | src/main/java/com/auction/models/Seller.java:22-32 | the profile a new user of a role gets belongs to that role |
| Users.DecodeUser | src/main/java/com/auction/services/impl/UserServiceImpl.java:220-290 | decoding fails exactly on an unknown role; the profile matches the role; the account is active unless explicitly false; missing counters are 0 |
| Users.DecodeEncodeUser | src/main/java/com/auction/services/impl/UserServiceImpl.java:176-215 | decoding an encoded user gives it back |
| Users.RegisterUser | src/main/java/com/auction/services/impl/UserServiceImpl.java:33-58 | a taken username is reported first, then a taken email; success exactly when username, email and id are all free; it appends one document holding the hashed password |
| Users.RegisterKeepsAccountsUnique | src/main/java/com/auction/services/impl/UserServiceImpl.java:38-52 | registration keeps usernames, emails and ids unique |
| Users.FindByUsername | src/main/java/com/auction/services/impl/UserServiceImpl.java:64 | the first document with the username, or none exactly when none has it |
| Users.Authenticate | src/main/java/com/auction/services/impl/UserServiceImpl.java:61-87 | an unknown user is refused; after the password verifies, an account stored with isActive false is reported deactivated, and any other account logs in exactly when its document decodes, failing otherwise with "Authentication failed" and the decoding error; a successful login is the active, decoded first account with that username |
| Users.WrongPasswordLooksLikeUnknownUser | src/main/java/com/auction/services/impl/UserServiceImpl.java:66-73 | a wrong password gets the same answer as an unknown username |
| Users.RegisterThenAuthenticate | src/main/java/com/auction/services/impl/UserServiceImpl.java:33-80 | an active user who has just registered can log in with the same password and gets the stored account back |
| Input.Trim | src/main/java/com/auction/utils/InputUtils.java:37 | the result has no leading or trailing character at or below space; it is empty exactly when the input is all such characters |
| Input.TrimIsInfix | src/main/java/com/auction/utils/InputUtils.java:37 | the result is the part of the input between a blank prefix and a blank suffix |
| Input.TrimIdempotent | src/main/java/com/auction/utils/InputUtils.java:37 | trimming twice is trimming once |
| Input.ParseInt | src/main/java/com/auction/utils/InputUtils.java:66 | a string parses exactly when it is an optional sign followed by at least one digit and its value fits in 32 bits; the result is that value, negated after a minus sign |
| Input.ParseIntToString | src/main/java/com/auction/utils/InputUtils.java:66 | every 32-bit integer, negative ones included, parses back from its decimal numeral |
| Input.ParseIntDigitsOf | src/main/java/com/auction/utils/InputUtils.java:66 | parsing the decimal numeral of a value in range gives the value back |
| Input.ReadInt | src/main/java/com/auction/utils/InputUtils.java:61-71 | an entry is accepted exactly when its trimmed form is a signed numeral within 32 bits, and gives that numeral's value; the numeral of any value in range is accepted as that value |
| Input.ReadRequiredString | src/main/java/com/auction/utils/InputUtils.java:34-46 | accepted exactly when the line has a visible character, and then gives the trimmed line |
| Input.ReadUsername | src/main/java/com/auction/utils/InputUtils.java:95-112 | accepted exactly when the trimmed line matches the username pattern |
| Input.MatchesPassword | src/main/java/com/auction/utils/InputUtils.java:24-26 | the scan answers true exactly when the password pattern holds |
| Input.ReadPassword | src/main/java/com/auction/utils/InputUtils.java:143-170 | accepted exactly when the trimmed line matches the password pattern, which needs at least 8 characters |
| Input.ReadPasswordConfirmation | src/main/java/com/auction/utils/InputUtils.java:177-194 | accepted exactly when the trimmed line equals a non-empty original |
| Input.ConfirmSameLine | src/main/java/com/auction/utils/InputUtils.java:143-194 | entering the same line as password and as confirmation confirms exactly the passwords the password reader accepts; the trimmed line confirms itself exactly when it is non-empty |
| Input.ReadName | src/main/java/com/auction/utils/InputUtils.java:202-219 | accepted exactly when the trimmed line matches the name pattern |
| Input.StripSpacesAndDashes | src/main/java/com/auction/utils/InputUtils.java:237 | removes exactly the whitespace and dashes, keeping every other character as often as it occurs |
| Input.StripKeepsOrder | src/main/java/com/auction/utils/InputUtils.java:237 | stripping keeps the remaining characters in order: it distributes over concatenation and keeps a single character exactly when it is neither white space nor a dash |
| Input.ReadPhone | src/main/java/com/auction/utils/InputUtils.java:226-247 | accepted exactly when the trimmed, stripped line matches the phone pattern, and then gives that stripped form |
| Input.PhoneCharacters | src/main/java/com/auction/utils/InputUtils.java:21-23 | a phone number consists of digits with at most a leading plus |
| Input.EmailCheckMatchesPattern | src/main/java/com/auction/utils/InputUtils.java:18-20 | the executable e-mail check agrees with the e-mail pattern |
| Input.ReadEmail | src/main/java/com/auction/utils/InputUtils.java:119-136 | accepted exactly when the trimmed line matches the e-mail pattern |
| Input.EmailHasOneAt | src/main/java/com/auction/utils/InputUtils.java:18-20 | an accepted e-mail address has exactly one '@' |
| Input.ValidatorsIdempotent | src/main/java/com/auction/utils/InputUtils.java:95-219 | a value accepted by the username, password, name or e-mail reader is accepted unchanged when entered again |
| Input.ReadPhoneIdempotent | src/main/java/com/auction/utils/InputUtils.java:226-247 | an accepted phone number is accepted unchanged when entered again |
| Input.Tokens | src/main/java/com/auction/utils/InputUtils.java:269 | splitting yields only non-empty pieces free of commas and whitespace |
| Input.TokensSplitAtSeparator | src/main/java/com/auction/utils/InputUtils.java:269 | a comma or white-space character cuts the input: the pieces of the whole are the pieces before it followed by the pieces after it |
| Input.TokensOfRun | src/main/java/com/auction/utils/InputUtils.java:269 | input without separators is a single piece, or no piece when it is empty |
| Input.ParseAllMeaning | src/main/java/com/auction/utils/InputUtils.java:271-274 | a list of entries parses exactly when each entry does, element by element |
| Input.Select | src/main/java/com/auction/utils/InputUtils.java:271-293 | the loop's result agrees with the declarative outcome: parse every piece, then reject any value out of range or repeated |
| Input.ReadMultipleSelections | src/main/java/com/auction/utils/InputUtils.java:255-299 | an accepted selection is non-empty, in range and without repeats, and is exactly the declarative outcome for the split line |
| Input.SelectionRoundTrip | src/main/java/com/auction/utils/InputUtils.java:255-299 | writing a non-empty list of distinct in-range choices as comma-separated numerals reads back the same list |

## Left out

- Concurrency. The code has no version check, and the model treats every call as one atomic step. So the lost updates that racing bidders can cause in the code are not modelled.
- Time. The clock, `LocalDateTime`, time zones and `Date` conversion become integer seconds passed as `now`. Date formatting and parsing (`formatDateTime`, `parseDateTime`) are not modelled.
- One clock reading per call. The model uses a single `now` for each call, but the code reads the clock more than once: `placeBid` reads it in `hasEnded()` (AuctionServiceImpl.java:163) and again for the new end time (AuctionServiceImpl.java:186), and `createNewAuction` reads it separately for the start and the end time (AdminServiceImpl.java:163-164). So in the code the new end time can fall slightly later than the moment of the guard, and an opened auction's end time can exceed its start time plus the duration.
- Undecodable auction documents. The `Store` holds decoded `Auction` records, so the store is assumed to hold only documents `documentToAuction` can decode (AuctionServiceImpl.java:355-402). In the code a document with a missing price field throws. Inside `checkAndGetNewlyCompletedAuctions` (AuctionServiceImpl.java:299-307) this aborts the sweep after the earlier due auctions were already closed and written back. `checkAndDisplayWinnerAnnouncements` swallows the exception (WinnerAnnouncementUtils.java:48-51), so those auctions end closed but unannounced. The same throw can stop `placeBid`'s lookup. This partial sweep and these lookup failures are not modelled.
- Money. Prices are `double` in the code and integer cents here, so rounding and the `+ 0.01` minimum-bid hint are not modelled. `readDouble` is left out for the same reason.
- Hashing. BCrypt and `PasswordUtils` become an abstract hasher with a random salt parameter, and only `Sound` is assumed of it.
- Console I/O. Printing, `Scanner` prompts, retry loops, `clearScreen` and `pause` are not modelled. A reader is modelled for one entered line, and `None` stands for "ask again".
- The bid document codec (`bidToDocument`, `documentToBid`) and `getBidsByAuctionId` are not modelled: the bid store is a map, and only the order the recent-bid display receives matters, which is a parameter of `Winners.RecentBids`.
- Product and user lookups inside the announcements are not modelled. Whether the product was found is the parameter `productFound`. The winner's printed name (`getFullName`, "Unknown") is left out.
- Many service operations are not modelled:
  - the remaining read-only queries of `AuctionServiceImpl`, `ProductServiceImpl` and `UserServiceImpl` (find by id, by seller, by category, all, delete);
  - `updateAuction` as an operation of its own (inside `placeBid`, `endAuction` and the sweeps its write-back is the map update `auctions[id := a]`);
  - `updateUser`;
  - the buyer's profile, history and seller-listing screens.
  None of these changes the state the model tracks.
- `purchaseProduct` side effects: the transaction records, the buyer and seller counters and the total price. Only the quantity rules and the product update are modelled.
- `SellerServiceImpl`, `TransactionServiceImpl`, `AuthenticationUI`, the application entry point, the database connection and the test classes are not part of this model.
- Admin.HistoryWinnerLabel: the product lookup that precedes the winner column is not modelled. Its null-product-id failure would abort the history like a missing status does.
- Input.ParseInt: accepts ASCII digits only, whereas Java's `Integer.parseInt` also accepts other Unicode decimal digits.
- Catalog.GetAllCategories: orders `char` values, which are Unicode scalar values. Java compares UTF-16 code units, and the two orders differ only for characters outside the Basic Multilingual Plane.

=== FILE: admin.dfy ===
/**
 * The administrator's side of services/impl/AdminServiceImpl.java: opening
 * an auction on an available product, the winner column of the auction
 * history, and the role-dispatching user decoder behind `getUsersByRole`.
 *
 * The keyboard answers (menu choice, price, duration), the clock and the
 * id MongoDB assigns to a new auction are parameters.
 */
module Admin {
  import opened Wrappers
  import opened Auctions
  import opened AuctionService
  import Catalog
  import Users
  import Seqs
  import Winners

  // ---------------------------------------------------------------------------
  // Opening an auction
  // ---------------------------------------------------------------------------

  /**
   * The record `createNewAuction` builds for the chosen product: the highest
   * bid starts at the starting price, the clock starts now, and the auction
   * is active from the outset.
   */
  function InitialAuction(id: AuctionId, p: Catalog.Product, startingPrice: Money,
                          durationMinutes: int, now: Time): (a: Auction)
    ensures a.id == id && a.productId == Some(p.id) && a.sellerId == p.sellerId
    ensures a.startingPrice == a.currentHighestBid == startingPrice
    ensures a.currentHighestBidderId.None? && a.totalBids == 0 && !HasWinningBid(a)
    ensures a.startTime == Some(now) && a.durationMinutes == durationMinutes
    ensures a.endTime == Some(PlusMinutes(now, durationMinutes))
    ensures a.isActive && a.status == Active && !a.isCompleted
  {
    BlankAuction(id).(productId := Some(p.id), sellerId := p.sellerId,
                      startingPrice := startingPrice, currentHighestBid := startingPrice,
                      startTime := Some(now), endTime := Some(PlusMinutes(now, durationMinutes)),
                      durationMinutes := durationMinutes, isActive := true, status := Active)
  }

  /**
   * `updateProduct(product)`: `replaceOne(eq("_id", id), doc)` replaces the
   * first stored document with that id and leaves the rest alone; with no
   * such document nothing changes.
   */
  function ReplaceById(docs: seq<Catalog.ProductDoc>, d: Catalog.ProductDoc): (r: seq<Catalog.ProductDoc>)
    ensures |r| == |docs|
    ensures forall i :: 0 <= i < |docs| && docs[i].id != d.id ==> r[i] == docs[i]
    ensures forall i :: 0 <= i < |docs| && docs[i].id == d.id && (forall j :: 0 <= j < i ==> docs[j].id != d.id)
              ==> r[i] == d
    ensures forall i, j :: 0 <= i < j < |docs| && docs[i].id == d.id ==> r[j] == docs[j]
  {
    var k := Catalog.FirstWithId(docs, d.id);
    if k.None? then docs else docs[k.value := d]
  }

  /** The two collections `createNewAuction` touches. */
  datatype Market = Market(store: Store, products: seq<Catalog.ProductDoc>)

  datatype CreateError =
    | ListingFailed(decodeError: Catalog.DecodeError)   // `getAvailableProducts` threw
    | NoAvailableProducts
    | InvalidSelection
    | AuctionStoreError(storeError: AuctionError)

  /**
   * `createNewAuction()`: lists the available products, takes the one-based
   * `choice`, inserts the initial auction and then withdraws the product by
   * storing it with `isAvailable` cleared.
   */
  function CreateNewAuction(m: Market, choice: int, startingPrice: Money, durationMinutes: int,
                            now: Time, newId: AuctionId): (r: Result<Market, CreateError>)
    ensures Catalog.AvailableProducts(m.products).Failure? <==> r.Failure? && r.error.ListingFailed?
    ensures Catalog.AvailableProducts(m.products) == Success([]) <==> r == Failure(NoAvailableProducts)
    ensures Catalog.AvailableProducts(m.products).Success? && |Catalog.AvailableProducts(m.products).value| > 0 ==>
      (r == Failure(InvalidSelection) <==> !(1 <= choice <= |Catalog.AvailableProducts(m.products).value|))
    ensures r.Success? ==>
      var p := Catalog.AvailableProducts(m.products).value[choice - 1];
      && Catalog.IsOffered(p)
      && newId !in m.store.auctions
      && CreateAuction(m.store, InitialAuction(newId, p, startingPrice, durationMinutes, now))
           == Success(r.value.store)
      && r.value.products == ReplaceById(m.products, Catalog.EncodeProduct(p.(isAvailable := false)))
  {
    var listing := Catalog.AvailableProducts(m.products);
    if listing.Failure? then Failure(ListingFailed(listing.error))
    else if |listing.value| == 0 then Failure(NoAvailableProducts)
    else
      match Seqs.Pick(listing.value, choice)
      case None => Failure(InvalidSelection)
      case Some(p) =>
        match CreateAuction(m.store, InitialAuction(newId, p, startingPrice, durationMinutes, now))
        case Failure(e) => Failure(AuctionStoreError(e))
        case Success(store) =>
          Success(Market(store, ReplaceById(m.products, Catalog.EncodeProduct(p.(isAvailable := false)))))
  }

  /** Every product the listing shows comes from a stored document with its id. */
  lemma ListedProductIsStored(docs: seq<Catalog.ProductDoc>, k: nat)
    requires Catalog.AvailableProducts(docs).Success? && k < |Catalog.AvailableProducts(docs).value|
    ensures exists i :: 0 <= i < |docs| && docs[i].id == Catalog.AvailableProducts(docs).value[k].id
  {
    var matched := Seqs.Filter(docs, Catalog.AvailableQuery);
    var listing := Catalog.AvailableProducts(docs).value;
    assert Catalog.DecodeAll(matched) == Success(listing);
    assert Catalog.DecodeProduct(matched[k]) == Success(listing[k]);
    assert matched[k] in docs;
  }

  /**
   * Replacing the document with a stored id keeps ids unique, and the
   * replacement is then the only document with that id.
   */
  lemma ReplaceStoredId(docs: seq<Catalog.ProductDoc>, d: Catalog.ProductDoc, k: nat)
    requires Catalog.UniqueProductIds(docs) && k < |docs| && docs[k].id == d.id
    ensures var r := ReplaceById(docs, d);
      && Catalog.UniqueProductIds(r) && r[k] == d
      && (forall i :: 0 <= i < |r| && r[i].id == d.id ==> i == k)
  {
    var r := ReplaceById(docs, d);
    assert forall j :: 0 <= j < k ==> docs[j].id != d.id;
    assert forall i :: 0 <= i < |docs| && i != k ==> r[i] == docs[i];
  }

  /**
   * After an auction is opened on a product, that product is no longer among
   * the available products: the document with its id is stored unavailable
   * and, ids being unique, there is no other.
   */
  lemma CreatedAuctionWithdrawsProduct(m: Market, choice: int, startingPrice: Money,
                                       durationMinutes: int, now: Time, newId: AuctionId)
    requires Catalog.UniqueProductIds(m.products)
    requires CreateNewAuction(m, choice, startingPrice, durationMinutes, now, newId).Success?
    ensures var r := CreateNewAuction(m, choice, startingPrice, durationMinutes, now, newId).value;
      var p := Catalog.AvailableProducts(m.products).value[choice - 1];
      && Catalog.UniqueProductIds(r.products)
      && (exists i :: 0 <= i < |r.products| && r.products[i].id == p.id)
      && (forall i :: 0 <= i < |r.products| && r.products[i].id == p.id ==> !Catalog.AvailableQuery(r.products[i]))
  {
    var r := CreateNewAuction(m, choice, startingPrice, durationMinutes, now, newId).value;
    var p := Catalog.AvailableProducts(m.products).value[choice - 1];
    var d := Catalog.EncodeProduct(p.(isAvailable := false));
    ListedProductIsStored(m.products, choice - 1);
    var k :| 0 <= k < |m.products| && m.products[k].id == p.id;
    ReplaceStoredId(m.products, d, k);
    assert r.products == ReplaceById(m.products, d);
    assert r.products[k].id == p.id;
  }

  /**
   * The first bid on a freshly opened auction with a non-negative duration
   * is accepted when it beats the starting price and its id is new.
   */
  lemma OpenedAuctionAcceptsFirstBid(m: Market, choice: int, startingPrice: Money,
                                     durationMinutes: int, now: Time, newId: AuctionId, bid: Bid)
    requires CreateNewAuction(m, choice, startingPrice, durationMinutes, now, newId).Success?
    requires durationMinutes >= 0
    requires bid.auctionId == newId && bid.amount > startingPrice && bid.id !in m.store.bids
    ensures PlaceBid(CreateNewAuction(m, choice, startingPrice, durationMinutes, now, newId).value.store, bid, now).Success?
  {
  }

  /**
   * A negative duration, which the console accepts, opens an auction that
   * has already ended: every bid on it is refused.
   */
  lemma NegativeDurationRefusesBids(m: Market, choice: int, startingPrice: Money,
                                    durationMinutes: int, now: Time, newId: AuctionId, bid: Bid)
    requires CreateNewAuction(m, choice, startingPrice, durationMinutes, now, newId).Success?
    requires durationMinutes < 0 && bid.auctionId == newId
    ensures PlaceBid(CreateNewAuction(m, choice, startingPrice, durationMinutes, now, newId).value.store, bid, now)
              == Failure(AuctionHasEnded)
  {
  }

  // ---------------------------------------------------------------------------
  // The role-dispatching decoder
  // ---------------------------------------------------------------------------

  /**
   * The admin service's own `documentToUser`: the subclass is chosen by the
   * role (an absent or unknown role is an error), the common fields are
   * copied, `isActive` defaults to true, and the per-role data stays as the
   * subclass constructor left it.
   */
  function DecodeListedUser(d: Users.UserDoc): (r: Result<Users.User, Users.DecodeError>)
    ensures r.Failure? <==> Users.ParseRole(d.role).None?
    ensures r.Success? ==>
      && Users.RoleOf(r.value.profile) == Users.ParseRole(d.role).value
      && r.value.profile == Users.FreshProfile(Users.ParseRole(d.role).value)
      && r.value.id == d.id && r.value.username == d.username && r.value.email == d.email
      && r.value.isActive == (d.isActive != Some(false))
  {
    var role := Users.ParseRole(d.role);
    if role.None? then Failure(Users.UnknownRole(d.role))
    else Success(Users.User(d.id, d.username, d.email, d.password, d.firstName, d.lastName,
                            d.phoneNumber, Users.OptionOr(d.isActive, true), Users.FreshProfile(role.value)))
  }

  /**
   * The two decoders accept the same documents and agree on every common
   * field; the admin's listing only loses the per-role lists and counters.
   */
  lemma DecodersAgree(d: Users.UserDoc)
    ensures DecodeListedUser(d).Success? <==> Users.DecodeUser(d).Success?
    ensures DecodeListedUser(d).Success? ==>
      DecodeListedUser(d).value == Users.DecodeUser(d).value.(profile := DecodeListedUser(d).value.profile)
  {
  }

  /**
   * `getUsersByRole(role)`: the documents whose role field equals `role`, in
   * stored order, each decoded; the first that cannot be decoded aborts.
   */
  function UsersByRole(users: seq<Users.UserDoc>, role: string): (r: Result<seq<Users.User>, Users.DecodeError>)
    ensures Users.ParseRole(Some(role)).Some? ==> r.Success?
    ensures Users.ParseRole(Some(role)).None? ==>
      (r.Success? <==> forall i :: 0 <= i < |users| ==> users[i].role != Some(role))
    ensures r.Success? ==> |r.value| <= |users|
    ensures r.Success? ==> forall k :: 0 <= k < |r.value| ==>
      Users.RoleName(Users.RoleOf(r.value[k].profile)) == role
    ensures r.Success? ==> forall i :: 0 <= i < |users| && users[i].role == Some(role) ==>
      DecodeListedUser(users[i]).Success? && DecodeListedUser(users[i]).value in r.value
  {
    if |users| == 0 then Success([])
    else
      var rest := UsersByRole(users[1..], role);
      assert forall i :: 1 <= i < |users| ==> users[i] == users[1..][i - 1];
      if users[0].role != Some(role) then rest
      else
        match DecodeListedUser(users[0])
        case Failure(e) => Failure(e)
        case Success(u) =>
          if rest.Failure? then rest else Success([u] + rest.value)
  }

  /**
   * The listing keeps the stored order: listing two runs of documents gives
   * the first run's users followed by the second's, and one document is
   * listed exactly when it carries the role.
   */
  lemma {:induction false} UsersByRoleAppend(u1: seq<Users.UserDoc>, u2: seq<Users.UserDoc>, role: string)
    requires UsersByRole(u1 + u2, role).Success?
    ensures UsersByRole(u1, role).Success? && UsersByRole(u2, role).Success?
    ensures UsersByRole(u1 + u2, role).value == UsersByRole(u1, role).value + UsersByRole(u2, role).value
    decreases |u1|
  {
    if |u1| == 0 {
      assert u1 + u2 == u2;
    } else {
      var u := u1 + u2;
      assert u[0] == u1[0] && u[1..] == u1[1..] + u2;
      UsersByRoleAppend(u1[1..], u2, role);
    }
  }

  /**
   * Listed user `k` is the decoding of the stored document that carries the
   * role with exactly `k` such documents before it.
   */
  lemma {:induction false} UsersByRolePosition(users: seq<Users.UserDoc>, role: string, k: nat) returns (i: nat)
    requires UsersByRole(users, role).Success? && k < |UsersByRole(users, role).value|
    ensures i < |users| && users[i].role == Some(role)
    ensures DecodeListedUser(users[i]) == Success(UsersByRole(users, role).value[k])
    ensures CountRole(users[..i], role) == k
    decreases |users|
  {
    var rest := UsersByRole(users[1..], role);
    if users[0].role == Some(role) && k == 0 {
      i := 0;
      assert users[..0] == [];
    } else {
      var k': nat := if users[0].role == Some(role) then k - 1 else k;
      assert UsersByRole(users, role).value[k] == rest.value[k'];
      var j := UsersByRolePosition(users[1..], role, k');
      i := j + 1;
      assert users[..i][1..] == users[1..][..j];
      assert users[..i][0] == users[0];
    }
  }

  /** A single document is listed, decoded, exactly when its role field is `role`. */
  lemma UsersByRoleSingle(d: Users.UserDoc, role: string)
    requires DecodeListedUser(d).Success?
    ensures UsersByRole([d], role) == if d.role == Some(role) then Success([DecodeListedUser(d).value]) else Success([])
  {
    assert [d][1..] == [];
    assert UsersByRole([d][1..], role) == Success([]);
    assert [DecodeListedUser(d).value] + [] == [DecodeListedUser(d).value];
  }

  /** The number of stored documents with role field `role`. */
  function CountRole(users: seq<Users.UserDoc>, role: string): nat {
    if |users| == 0 then 0
    else (if users[0].role == Some(role) then 1 else 0) + CountRole(users[1..], role)
  }

  /** `getUsersByRole` returns one user per document carrying the role. */
  lemma {:induction false} UsersByRoleCount(users: seq<Users.UserDoc>, role: string)
    requires UsersByRole(users, role).Success?
    ensures |UsersByRole(users, role).value| == CountRole(users, role)
  {
    if |users| > 0 {
      UsersByRoleCount(users[1..], role);
    }
  }

  /** `hasAnyAdmin()`. */
  function HasAnyAdmin(users: seq<Users.UserDoc>): (r: bool)
    ensures r <==> CountRole(users, "ADMIN") > 0
  {
    var admins := UsersByRole(users, "ADMIN");
    UsersByRoleCount(users, "ADMIN");
    |admins.value| > 0
  }

  /** `getAdminCount()`. */
  function AdminCount(users: seq<Users.UserDoc>): (r: nat)
    ensures r == CountRole(users, "ADMIN")
    ensures r > 0 <==> HasAnyAdmin(users)
  {
    var admins := UsersByRole(users, "ADMIN");
    UsersByRoleCount(users, "ADMIN");
    |admins.value|
  }

  // ---------------------------------------------------------------------------
  // The auction history
  // ---------------------------------------------------------------------------

  /**
   * `findUserById(id)`: the first stored document with that id, decoded by
   * the user service; an undecodable document makes the lookup throw.
   */
  function FindUserById(users: seq<Users.UserDoc>, id: UserId): (r: Result<Option<Users.User>, Users.DecodeError>)
    ensures r == Success(None) <==> !Users.IdTaken(users, id)
    ensures r.Success? && r.value.Some? ==> r.value.value.id == id
    ensures r.Success? && r.value.Some? ==>
      exists i :: 0 <= i < |users| && Users.DecodeUser(users[i]) == Success(r.value.value)
    ensures forall k :: 0 <= k < |users| && users[k].id == id && (forall j :: 0 <= j < k ==> users[j].id != id) ==>
      && (r.Success? <==> Users.DecodeUser(users[k]).Success?)
      && (r.Success? ==> r.value == Some(Users.DecodeUser(users[k]).value))
  {
    if |users| == 0 then Success(None)
    else if users[0].id == id then
      match Users.DecodeUser(users[0])
      case Failure(e) => Failure(e)
      case Success(u) => Success(Some(u))
    else
      var rest := FindUserById(users[1..], id);
      assert forall i :: 1 <= i < |users| ==> users[i] == users[1..][i - 1];
      assert Users.IdTaken(users, id) ==> Users.IdTaken(users[1..], id);
      rest
  }

  /**
   * `first()` takes the earliest match: looking an id up in two runs of
   * documents looks in the second run only when the first has no document
   * with that id.
   */
  lemma {:induction false} FindUserByIdAppend(u1: seq<Users.UserDoc>, u2: seq<Users.UserDoc>, id: UserId)
    ensures FindUserById(u1 + u2, id) == if Users.IdTaken(u1, id) then FindUserById(u1, id) else FindUserById(u2, id)
    decreases |u1|
  {
    if |u1| == 0 {
      assert u1 + u2 == u2;
    } else {
      var u := u1 + u2;
      assert u[0] == u1[0] && u[1..] == u1[1..] + u2;
      FindUserByIdAppend(u1[1..], u2, id);
      if u1[0].id != id {
        assert Users.IdTaken(u1, id) <==> Users.IdTaken(u1[1..], id) by {
          if Users.IdTaken(u1, id) {
            var i :| 0 <= i < |u1| && u1[i].id == id;
            assert u1[1..][i - 1] == u1[i];
          }
          if Users.IdTaken(u1[1..], id) {
            var i :| 0 <= i < |u1[1..]| && u1[1..][i].id == id;
            assert u1[i + 1] == u1[1..][i];
          }
        }
      } else {
        assert Users.IdTaken(u1, id) by { assert u1[0].id == id; }
      }
    }
  }

  /** The Winner column of `viewAuctionHistory`. */
  datatype WinnerLabel =
    | NotApplicable                          // "N/A"
    | NoWinnerLabel                          // "No Winner"
    | UnknownWinner                          // "Unknown": the lookup or the initial threw
    | Named(firstName: string, initial: char) // first name, initial of the last name

  /**
   * The winner label of one history row, or nothing when the row aborts the
   * whole history (`getStatus().equals(...)` on an absent status throws
   * outside the inner handler).
   */
  function HistoryWinnerLabel(a: Auction, users: seq<Users.UserDoc>): (r: Option<WinnerLabel>)
    ensures r.None? <==> a.status == Other(None)
    ensures r == Some(NotApplicable) <==>
      a.status != Other(None) && (a.status != Completed || a.currentHighestBidderId.None?)
    ensures r.Some? && r.value.Named? ==>
      && a.status == Completed && HasWinningBid(a)
      && FindUserById(users, a.currentHighestBidderId.value).Success?
      && FindUserById(users, a.currentHighestBidderId.value).value.Some?
    ensures a.status == Completed && a.currentHighestBidderId.Some? ==>
      var f := FindUserById(users, a.currentHighestBidderId.value);
      && (f.Failure? ==> r == Some(UnknownWinner))
      && (f == Success(None) || (f.Success? && a.currentHighestBid <= a.startingPrice) ==> r == Some(NoWinnerLabel))
      && (f.Success? && f.value.Some? && a.currentHighestBid > a.startingPrice ==>
            r == Some(if |f.value.value.lastName| == 0 then UnknownWinner
                      else Named(f.value.value.firstName, f.value.value.lastName[0])))
  {
    if a.status == Other(None) then None
    else if a.status != Completed || a.currentHighestBidderId.None? then Some(NotApplicable)
    else
      match FindUserById(users, a.currentHighestBidderId.value)
      case Failure(_) => Some(UnknownWinner)
      case Success(None) => Some(NoWinnerLabel)
      case Success(Some(u)) =>
        if a.currentHighestBid <= a.startingPrice then Some(NoWinnerLabel)
        else if |u.lastName| == 0 then Some(UnknownWinner)
        else Some(Named(u.firstName, u.lastName[0]))
  }

  /**
   * For a completed auction whose highest bidder is on record with a last
   * name, the history names a winner exactly when the announcement does,
   * and it is the announced bidder.
   */
  lemma HistoryAgreesWithAnnouncement(a: Auction, users: seq<Users.UserDoc>, u: Users.User)
    requires a.status == Completed && a.productId.Some? && a.endTime.Some? && a.currentHighestBidderId.Some?
    requires FindUserById(users, a.currentHighestBidderId.value) == Success(Some(u)) && |u.lastName| > 0
    ensures HistoryWinnerLabel(a, users).value.Named? <==> Winners.Announce(a, true).WinnerAnnounced?
    ensures HistoryWinnerLabel(a, users).value.Named? ==>
      && Winners.Announce(a, true).winner == u.id
      && HistoryWinnerLabel(a, users) == Some(Named(u.firstName, u.lastName[0]))
  {
  }

  /**
   * An auction no one outbid is never listed with a winner; unless the
   * bidder lookup throws, it reads "N/A" or "No Winner".
   */
  lemma UnbidAuctionHasNoNamedWinner(a: Auction, users: seq<Users.UserDoc>)
    requires a.currentHighestBid <= a.startingPrice && a.status != Other(None)
    ensures HistoryWinnerLabel(a, users).value in {NotApplicable, NoWinnerLabel, UnknownWinner}
    ensures a.currentHighestBidderId.None? || FindUserById(users, a.currentHighestBidderId.value).Success? ==>
      HistoryWinnerLabel(a, users).value in {NotApplicable, NoWinnerLabel}
  {
  }
}

=== FILE: auction_invariants.dfy ===
/**
 * What the auction engine keeps true of its two collections across every
 * call: the bid counter, the highest bid, the highest bidder and the
 * `isWinning` flags of the stored bids all tell the same story, and the
 * status string agrees with the two boolean flags.
 *
 * A run is a sequence of service calls starting from empty collections;
 * a call that fails leaves the store as it was.
 */
module AuctionInvariants {
  import opened Wrappers
  import opened Auctions
  import opened AuctionService
  import Catalog
  import Admin
  import Winners

  /** The ids of the stored bids on auction `id`. */
  function BidsOn(bids: map<BidId, Bid>, id: AuctionId): set<BidId> {
    set k | k in bids && bids[k].auctionId == id
  }

  /** The status string and the two flags say the same thing. */
  predicate FlagsAgree(a: Auction) {
    && (a.isActive <==> a.status == Active)
    && (a.isCompleted <==> a.status == Completed)
  }

  /** Every bid on `a` is at most its highest bid, and exactly the ones equal to it are flagged winning. */
  predicate AmountsAgree(a: Auction, bids: map<BidId, Bid>) {
    forall k :: k in bids && bids[k].auctionId == a.id ==>
      bids[k].amount <= a.currentHighestBid && (bids[k].isWinning <==> bids[k].amount == a.currentHighestBid)
  }

  /** At most one bid on auction `id` is flagged winning. */
  predicate OneWinner(bids: map<BidId, Bid>, id: AuctionId) {
    forall k, j ::
      (k in bids && j in bids && bids[k].auctionId == id && bids[j].auctionId == id &&
       bids[k].isWinning && bids[j].isWinning) ==> k == j
  }

  /** Once bid on, the highest bidder holds a winning bid on the auction. */
  predicate WinnerRecorded(a: Auction, bids: map<BidId, Bid>) {
    a.totalBids > 0 ==>
      exists k :: k in bids && bids[k].auctionId == a.id && bids[k].isWinning &&
        Some(bids[k].bidderId) == a.currentHighestBidderId
  }

  /** The fields of one auction that do not depend on the bids. */
  predicate FieldsAgree(a: Auction) {
    && a.currentHighestBid >= a.startingPrice
    && (a.totalBids == 0 <==> a.currentHighestBidderId.None?)
    && (a.totalBids > 0 ==> a.currentHighestBid > a.startingPrice)
    && FlagsAgree(a)
  }

  /** One auction agrees with the bids stored on it. */
  predicate Consistent(a: Auction, bids: map<BidId, Bid>) {
    && FieldsAgree(a)
    && a.totalBids == |BidsOn(bids, a.id)|
    && AmountsAgree(a, bids)
    && OneWinner(bids, a.id)
    && WinnerRecorded(a, bids)
  }

  /** The store invariant: every auction is consistent and every bid is on a stored auction. */
  predicate Inv(s: Store) {
    && (forall id :: id in s.auctions ==> s.auctions[id].id == id && Consistent(s.auctions[id], s.bids))
    && (forall k :: k in s.bids ==> s.bids[k].auctionId in s.auctions)
  }

  /** One service call, with the clock and the keyboard answers it needs. */
  datatype Op =
    | PlaceBidOp(bid: Bid, now: Time)
    | EndAuctionOp(id: AuctionId)
    | SweepOp(now: Time)
    | CreateOp(newId: AuctionId, product: Catalog.Product, startingPrice: Money, durationMinutes: int, now: Time)

  /** The store after one call; a failed call changes nothing. */
  function Step(s: Store, op: Op): Store {
    var r := match op
      case PlaceBidOp(bid, now) => PlaceBid(s, bid, now)
      case EndAuctionOp(id) => EndAuction(s, id)
      case SweepOp(now) => Success(CheckAndUpdateExpired(s, now))
      case CreateOp(id, p, price, d, now) => CreateAuction(s, Admin.InitialAuction(id, p, price, d, now));
    if r.Success? then r.value else s
  }

  /** The store after a sequence of calls. */
  function Run(s: Store, ops: seq<Op>): Store
    decreases |ops|
  {
    if |ops| == 0 then s else Run(Step(s, ops[0]), ops[1..])
  }

  const EmptyStore: Store := Store(map[], map[])

  // ---------------------------------------------------------------------------
  // Preservation, one call at a time
  // ---------------------------------------------------------------------------

  /** The bids on `id` are the same in both maps. */
  predicate SameBidsOn(b1: map<BidId, Bid>, b2: map<BidId, Bid>, id: AuctionId) {
    && (forall k :: k in b1 && b1[k].auctionId == id ==> k in b2 && b2[k] == b1[k])
    && (forall k :: k in b2 && b2[k].auctionId == id ==> k in b1 && b1[k] == b2[k])
  }

  /** Consistency depends only on the bids placed on the auction itself. */
  lemma ConsistentTransfer(a: Auction, b1: map<BidId, Bid>, b2: map<BidId, Bid>)
    requires Consistent(a, b1) && SameBidsOn(b1, b2, a.id)
    ensures Consistent(a, b2)
  {
    assert BidsOn(b1, a.id) == BidsOn(b2, a.id);
    if a.totalBids > 0 {
      var k :| k in b1 && b1[k].auctionId == a.id && b1[k].isWinning
               && Some(b1[k].bidderId) == a.currentHighestBidderId;
      assert k in b2 && b2[k] == b1[k];
    }
  }

  /** Closing an auction keeps it consistent: only the three status fields change. */
  lemma CloseKeepsConsistent(a: Auction, bids: map<BidId, Bid>)
    requires Consistent(a, bids)
    ensures Consistent(Close(a), bids)
  {
    assert BidsOn(bids, Close(a).id) == BidsOn(bids, a.id);
  }

  /** What an accepted bid does to the bid map, as the bid guard states it. */
  lemma PlaceBidBids(s: Store, bid: Bid, now: Time)
    requires PlaceBid(s, bid, now).Success?
    ensures var t := PlaceBid(s, bid, now).value;
      && bid.id !in s.bids
      && t.bids.Keys == s.bids.Keys + {bid.id}
      && t.bids[bid.id] == bid.(isWinning := true)
      && (forall k :: k in s.bids ==>
            t.bids[k].auctionId == s.bids[k].auctionId && t.bids[k].amount == s.bids[k].amount &&
            t.bids[k].bidderId == s.bids[k].bidderId)
      && (forall k :: k in s.bids && s.bids[k].auctionId == bid.auctionId ==> !t.bids[k].isWinning)
      && (forall k :: k in s.bids && s.bids[k].auctionId != bid.auctionId ==> t.bids[k] == s.bids[k])
  {
  }

  /** Adding one new bid on `aid` adds one to the bids counted on `aid`. */
  lemma CountAfterInsert(b1: map<BidId, Bid>, b2: map<BidId, Bid>, aid: AuctionId, added: BidId)
    requires added !in b1 && b2.Keys == b1.Keys + {added} && b2[added].auctionId == aid
    requires forall k :: k in b1 ==> b2[k].auctionId == b1[k].auctionId
    ensures |BidsOn(b2, aid)| == |BidsOn(b1, aid)| + 1
  {
    assert BidsOn(b2, aid) == BidsOn(b1, aid) + {added};
  }

  lemma PlaceBidCountsBid(s: Store, bid: Bid, now: Time)
    requires Inv(s) && PlaceBid(s, bid, now).Success?
    ensures var t := PlaceBid(s, bid, now).value;
      t.auctions[bid.auctionId].totalBids == |BidsOn(t.bids, bid.auctionId)|
  {
    var t := PlaceBid(s, bid, now).value;
    var aid := bid.auctionId;
    PlaceBidBids(s, bid, now);
    assert s.auctions[aid].totalBids == |BidsOn(s.bids, aid)|;
    CountAfterInsert(s.bids, t.bids, aid, bid.id);
  }

  lemma PlaceBidRanksBids(s: Store, bid: Bid, now: Time)
    requires Inv(s) && PlaceBid(s, bid, now).Success?
    ensures var t := PlaceBid(s, bid, now).value;
      AmountsAgree(t.auctions[bid.auctionId], t.bids) && OneWinner(t.bids, bid.auctionId)
  {
    var t := PlaceBid(s, bid, now).value;
    var aid := bid.auctionId;
    var a := s.auctions[aid];
    var cur := t.auctions[aid].currentHighestBid;
    PlaceBidBids(s, bid, now);
    assert t.auctions[aid].id == aid;
    assert AmountsAgree(a, s.bids);
    forall k | k in t.bids && t.bids[k].auctionId == aid
      ensures t.bids[k].amount <= cur && (t.bids[k].isWinning <==> t.bids[k].amount == cur)
    {
      if k != bid.id {
        assert s.bids[k].amount <= a.currentHighestBid;
      }
    }
  }

  lemma PlaceBidRecordsWinner(s: Store, bid: Bid, now: Time)
    requires Inv(s) && PlaceBid(s, bid, now).Success?
    ensures var t := PlaceBid(s, bid, now).value;
      WinnerRecorded(t.auctions[bid.auctionId], t.bids)
  {
    var t := PlaceBid(s, bid, now).value;
    PlaceBidBids(s, bid, now);
    assert t.auctions[bid.auctionId].id == bid.auctionId;
    assert t.bids[bid.id].isWinning;
  }

  /** An accepted bid keeps its own auction consistent with the new bid map. */
  lemma PlaceBidKeepsTargetConsistent(s: Store, bid: Bid, now: Time)
    requires Inv(s) && PlaceBid(s, bid, now).Success?
    ensures Consistent(PlaceBid(s, bid, now).value.auctions[bid.auctionId], PlaceBid(s, bid, now).value.bids)
  {
    PlaceBidCountsBid(s, bid, now);
    PlaceBidRanksBids(s, bid, now);
    PlaceBidRecordsWinner(s, bid, now);
  }

  /** An accepted bid leaves every other auction and the bids on it alone. */
  lemma PlaceBidKeepsOthersConsistent(s: Store, bid: Bid, now: Time, id: AuctionId)
    requires Inv(s) && PlaceBid(s, bid, now).Success?
    requires id in s.auctions && id != bid.auctionId
    ensures Consistent(PlaceBid(s, bid, now).value.auctions[id], PlaceBid(s, bid, now).value.bids)
  {
    var t := PlaceBid(s, bid, now).value;
    PlaceBidBids(s, bid, now);
    forall k | k in t.bids && t.bids[k].auctionId == id
      ensures k in s.bids && s.bids[k] == t.bids[k]
    {
      assert k != bid.id;
    }
    ConsistentTransfer(s.auctions[id], s.bids, t.bids);
  }

  lemma PlaceBidPreservesInv(s: Store, bid: Bid, now: Time)
    requires Inv(s) && PlaceBid(s, bid, now).Success?
    ensures Inv(PlaceBid(s, bid, now).value)
  {
    var t := PlaceBid(s, bid, now).value;
    forall id | id in t.auctions
      ensures t.auctions[id].id == id && Consistent(t.auctions[id], t.bids)
    {
      if id == bid.auctionId {
        PlaceBidKeepsTargetConsistent(s, bid, now);
      } else {
        PlaceBidKeepsOthersConsistent(s, bid, now, id);
      }
    }
  }

  lemma EndAuctionPreservesInv(s: Store, id: AuctionId)
    requires Inv(s) && EndAuction(s, id).Success?
    ensures Inv(EndAuction(s, id).value)
  {
    CloseKeepsConsistent(s.auctions[id], s.bids);
  }

  lemma SweepPreservesInv(s: Store, now: Time)
    requires Inv(s)
    ensures Inv(CheckAndUpdateExpired(s, now))
  {
    var t := CheckAndUpdateExpired(s, now);
    forall id | id in t.auctions
      ensures t.auctions[id].id == id && Consistent(t.auctions[id], t.bids)
    {
      if DueForClosing(s.auctions[id], now) {
        CloseKeepsConsistent(s.auctions[id], s.bids);
      }
    }
  }

  /** A newly opened auction has no bids yet, because every stored bid is on a stored auction. */
  lemma CreatePreservesInv(s: Store, id: AuctionId, p: Catalog.Product, price: Money, d: int, now: Time)
    requires Inv(s) && CreateAuction(s, Admin.InitialAuction(id, p, price, d, now)).Success?
    ensures Inv(CreateAuction(s, Admin.InitialAuction(id, p, price, d, now)).value)
  {
    var a := Admin.InitialAuction(id, p, price, d, now);
    var t := CreateAuction(s, a).value;
    assert BidsOn(s.bids, id) == {};
    forall j | j in t.auctions
      ensures t.auctions[j].id == j && Consistent(t.auctions[j], t.bids)
    {
    }
  }

  /** Every service call keeps the store invariant. */
  lemma StepPreservesInv(s: Store, op: Op)
    requires Inv(s)
    ensures Inv(Step(s, op))
  {
    match op
    case PlaceBidOp(bid, now) =>
      if PlaceBid(s, bid, now).Success? { PlaceBidPreservesInv(s, bid, now); }
    case EndAuctionOp(id) =>
      if EndAuction(s, id).Success? { EndAuctionPreservesInv(s, id); }
    case SweepOp(now) =>
      SweepPreservesInv(s, now);
    case CreateOp(id, p, price, d, now) =>
      if CreateAuction(s, Admin.InitialAuction(id, p, price, d, now)).Success? {
        CreatePreservesInv(s, id, p, price, d, now);
      }
  }

  /** Every sequence of calls keeps the store invariant. */
  lemma {:induction false} RunPreservesInv(s: Store, ops: seq<Op>)
    requires Inv(s)
    ensures Inv(Run(s, ops))
    decreases |ops|
  {
    if |ops| > 0 {
      StepPreservesInv(s, ops[0]);
      RunPreservesInv(Step(s, ops[0]), ops[1..]);
    }
  }

  /** Every store the service can reach from empty collections satisfies the invariant. */
  lemma ReachableStoresAreConsistent(ops: seq<Op>)
    ensures Inv(Run(EmptyStore, ops))
  {
    assert Inv(EmptyStore);
    RunPreservesInv(EmptyStore, ops);
  }

  // ---------------------------------------------------------------------------
  // Consequences
  // ---------------------------------------------------------------------------

  /** No call removes an auction or lowers its highest bid. */
  lemma StepKeepsAuctionsAndRaisesBids(s: Store, op: Op)
    ensures s.auctions.Keys <= Step(s, op).auctions.Keys
    ensures forall id :: id in s.auctions ==>
      Step(s, op).auctions[id].currentHighestBid >= s.auctions[id].currentHighestBid
    ensures forall id :: id in s.auctions ==>
      Step(s, op).auctions[id].startingPrice == s.auctions[id].startingPrice
  {
  }

  /** Over any sequence of calls, auctions stay stored and their highest bids never drop. */
  lemma {:induction false} RunKeepsAuctionsAndRaisesBids(s: Store, ops: seq<Op>, id: AuctionId)
    requires id in s.auctions
    ensures id in Run(s, ops).auctions
    ensures Run(s, ops).auctions[id].currentHighestBid >= s.auctions[id].currentHighestBid
    ensures Run(s, ops).auctions[id].startingPrice == s.auctions[id].startingPrice
    decreases |ops|
  {
    if |ops| > 0 {
      StepKeepsAuctionsAndRaisesBids(s, ops[0]);
      RunKeepsAuctionsAndRaisesBids(Step(s, ops[0]), ops[1..], id);
    }
  }

  /** In a consistent store no auction is both active and completed. */
  lemma ActiveNeverCompleted(s: Store, id: AuctionId)
    requires Inv(s) && id in s.auctions
    ensures s.auctions[id].isActive ==> !s.auctions[id].isCompleted
  {
  }

  /**
   * A completed auction is frozen: no call changes it, so its winner, once
   * announced, stays the winner.
   */
  lemma CompletedAuctionFrozen(s: Store, op: Op, id: AuctionId)
    requires Inv(s) && id in s.auctions && s.auctions[id].isCompleted
    ensures id in Step(s, op).auctions && Step(s, op).auctions[id] == s.auctions[id]
  {
    assert !s.auctions[id].isActive;
    match op
    case PlaceBidOp(bid, now) =>
    case EndAuctionOp(j) =>
    case SweepOp(now) =>
    case CreateOp(j, p, price, d, now) =>
  }

  /** The same over any sequence of calls. */
  lemma {:induction false} CompletedAuctionStaysFrozen(s: Store, ops: seq<Op>, id: AuctionId)
    requires Inv(s) && id in s.auctions && s.auctions[id].isCompleted
    ensures id in Run(s, ops).auctions && Run(s, ops).auctions[id] == s.auctions[id]
    decreases |ops|
  {
    if |ops| > 0 {
      CompletedAuctionFrozen(s, ops[0], id);
      StepPreservesInv(s, ops[0]);
      CompletedAuctionStaysFrozen(Step(s, ops[0]), ops[1..], id);
    }
  }

  /** In a consistent store an auction has a winning bid exactly when it has received a bid. */
  lemma WinnerIffBids(s: Store, id: AuctionId)
    requires Inv(s) && id in s.auctions
    ensures HasWinningBid(s.auctions[id]) <==> s.auctions[id].totalBids > 0
    ensures HasWinningBid(s.auctions[id]) <==> BidsOn(s.bids, id) != {}
  {
  }

  /**
   * The bidder an announcement names holds the one stored bid on the
   * auction flagged as winning, for the announced amount.
   */
  lemma AnnouncedWinnerHoldsWinningBid(s: Store, now: Time, id: AuctionId)
    requires Inv(s)
    requires id in CheckAndGetNewlyCompleted(s, now).completed
    requires Winners.Announce(CheckAndGetNewlyCompleted(s, now).completed[id], true).WinnerAnnounced?
    ensures var w := Winners.Announce(CheckAndGetNewlyCompleted(s, now).completed[id], true);
      exists k :: k in s.bids && s.bids[k].auctionId == id && s.bids[k].isWinning
        && s.bids[k].bidderId == w.winner && s.bids[k].amount == w.winningBid
  {
    var a := s.auctions[id];
    assert CheckAndGetNewlyCompleted(s, now).completed[id] == Close(a);
    assert a.totalBids > 0;
    var k :| k in s.bids && s.bids[k].auctionId == id && s.bids[k].isWinning
             && Some(s.bids[k].bidderId) == a.currentHighestBidderId;
    assert s.bids[k].amount == a.currentHighestBid;
  }
}

=== FILE: auction_service.dfy ===
/**
 * The auction engine of services/impl/AuctionServiceImpl.java: bid placement,
 * forced closing, the expiry sweeps, the active-auction query and the
 * document decoder.
 *
 * The two MongoDB collections become two maps. Every service call is one
 * atomic step from a store to a new store or to an error; a failed call
 * produces no store, so nothing it would have written is visible.
 */
module AuctionService {
  import opened Wrappers
  import opened Auctions

  datatype Store = Store(auctions: map<AuctionId, Auction>, bids: map<BidId, Bid>)

  /** Failures the Java code reports as a DatabaseException. */
  datatype StoreFault =
    | MissingEndTime   // `hasEnded()` dereferencing a null end time
    | DuplicateKey     // `insertOne` of a document whose id is already stored

  /** The AuctionException messages, plus the store faults. */
  datatype AuctionError =
    | AuctionNotFound
    | AuctionNotActive
    | AuctionHasEnded
    | BidTooLow
    | AlreadyCompleted
    | StoreFailure(fault: StoreFault)

  /** An auction that is not active, is completed and says so. */
  predicate IsClosed(a: Auction) {
    !a.isActive && a.isCompleted && a.status == Completed
  }

  /** The three assignments `endAuction` and both sweeps make. */
  function Close(a: Auction): (c: Auction)
    ensures IsClosed(c)
    ensures c.(isActive := a.isActive, isCompleted := a.isCompleted, status := a.status) == a
  {
    a.(isActive := false, isCompleted := true, status := Completed)
  }

  /** `createAuction`: inserts the record; an id already stored is a duplicate-key failure. */
  function CreateAuction(s: Store, a: Auction): (r: Result<Store, AuctionError>)
    ensures a.id in s.auctions <==> r == Failure(StoreFailure(DuplicateKey))
    ensures r.Success? ==> r.value.auctions.Keys == s.auctions.Keys + {a.id}
    ensures r.Success? ==> r.value.auctions[a.id] == a && r.value.bids == s.bids
    ensures r.Success? ==> forall id :: id in s.auctions ==> r.value.auctions[id] == s.auctions[id]
  {
    if a.id in s.auctions then Failure(StoreFailure(DuplicateKey))
    else Success(s.(auctions := s.auctions[a.id := a]))
  }

  /** Every bid on `auctionId` with `isWinning` cleared; all other bids as they were. */
  function Demote(bids: map<BidId, Bid>, auctionId: AuctionId): (r: map<BidId, Bid>)
    ensures r.Keys == bids.Keys
    ensures forall k :: k in bids && bids[k].auctionId == auctionId ==> r[k] == bids[k].(isWinning := false)
    ensures forall k :: k in bids && bids[k].auctionId != auctionId ==> r[k] == bids[k]
  {
    map k | k in bids :: if bids[k].auctionId == auctionId then bids[k].(isWinning := false) else bids[k]
  }

  /**
   * `placeBid(bid)` at time `now`. The guards run in the source's order;
   * on success the bid is stored as the only winning bid on its auction, and
   * the auction takes the new amount, the new bidder, one more bid, and an end
   * time one full configured duration after `now`.
   */
  function PlaceBid(s: Store, bid: Bid, now: Time): (r: Result<Store, AuctionError>)
    ensures bid.auctionId !in s.auctions ==> r == Failure(AuctionNotFound)
    ensures bid.auctionId in s.auctions ==>
      var a := s.auctions[bid.auctionId];
      && (!a.isActive ==> r == Failure(AuctionNotActive))
      && (a.isActive && a.endTime.None? ==> r == Failure(StoreFailure(MissingEndTime)))
      && (a.isActive && a.endTime.Some? && HasEnded(a, now) ==> r == Failure(AuctionHasEnded))
      && (a.isActive && a.endTime.Some? && !HasEnded(a, now) ==>
            && (bid.amount <= a.currentHighestBid ==> r == Failure(BidTooLow))
            && (bid.amount > a.currentHighestBid && bid.id in s.bids ==> r == Failure(StoreFailure(DuplicateKey)))
            && (bid.amount > a.currentHighestBid && bid.id !in s.bids ==> r.Success?))
    ensures r.Success? ==> r.value.auctions.Keys == s.auctions.Keys
    ensures r.Success? ==>
      var a := s.auctions[bid.auctionId];
      var a' := r.value.auctions[bid.auctionId];
      && a'.currentHighestBid == bid.amount > a.currentHighestBid
      && a'.currentHighestBidderId == Some(bid.bidderId)
      && a'.totalBids == a.totalBids + 1
      && a'.endTime == Some(PlusMinutes(now, a.durationMinutes))
      && a' == a.(currentHighestBid := a'.currentHighestBid,
                  currentHighestBidderId := a'.currentHighestBidderId,
                  totalBids := a'.totalBids, endTime := a'.endTime)
      && (forall id :: id in s.auctions && id != bid.auctionId ==> r.value.auctions[id] == s.auctions[id])
    ensures r.Success? ==>
      && bid.id !in s.bids
      && r.value.bids.Keys == s.bids.Keys + {bid.id}
      && r.value.bids[bid.id] == bid.(isWinning := true)
      && (forall k :: k in r.value.bids && k != bid.id && r.value.bids[k].auctionId == bid.auctionId
            ==> !r.value.bids[k].isWinning)
      && (forall k :: k in s.bids ==> r.value.bids[k] == s.bids[k].(isWinning := r.value.bids[k].isWinning))
      && (forall k :: k in s.bids && s.bids[k].auctionId != bid.auctionId ==> r.value.bids[k] == s.bids[k])
  {
    if bid.auctionId !in s.auctions then Failure(AuctionNotFound)
    else
      var a := s.auctions[bid.auctionId];
      if !a.isActive then Failure(AuctionNotActive)
      else if a.endTime.None? then Failure(StoreFailure(MissingEndTime))
      else if HasEnded(a, now) then Failure(AuctionHasEnded)
      else if bid.amount <= a.currentHighestBid then Failure(BidTooLow)
      else if bid.id in s.bids then Failure(StoreFailure(DuplicateKey))
      else
        var updated := a.(currentHighestBid := bid.amount,
                          currentHighestBidderId := Some(bid.bidderId),
                          totalBids := a.totalBids + 1,
                          endTime := Some(PlusMinutes(now, a.durationMinutes)));
        var bids := Demote(s.bids, bid.auctionId)[bid.id := bid.(isWinning := true)];
        Success(Store(s.auctions[bid.auctionId := updated], bids))
  }

  /** `endAuction(id)`: closes any auction that is not yet completed. */
  function EndAuction(s: Store, id: AuctionId): (r: Result<Store, AuctionError>)
    ensures id !in s.auctions ==> r == Failure(AuctionNotFound)
    ensures id in s.auctions && s.auctions[id].isCompleted ==> r == Failure(AlreadyCompleted)
    ensures id in s.auctions && !s.auctions[id].isCompleted ==> r.Success?
    ensures r.Success? ==>
      && r.value.auctions.Keys == s.auctions.Keys
      && IsClosed(r.value.auctions[id])
      && Close(s.auctions[id]) == r.value.auctions[id]
      && (forall j :: j in s.auctions && j != id ==> r.value.auctions[j] == s.auctions[j])
      && r.value.bids == s.bids
  {
    if id !in s.auctions then Failure(AuctionNotFound)
    else if s.auctions[id].isCompleted then Failure(AlreadyCompleted)
    else Success(s.(auctions := s.auctions[id := Close(s.auctions[id])]))
  }

  /**
   * The sweep query `isActive == true && endTime < now`. A missing end time
   * never compares less than a date, so such auctions are never selected.
   */
  predicate DueForClosing(a: Auction, now: Time) {
    a.isActive && a.endTime.Some? && a.endTime.value < now
  }

  /** `checkAndUpdateExpiredAuctions()`: closes every auction due for closing. */
  function CheckAndUpdateExpired(s: Store, now: Time): (r: Store)
    ensures r.auctions.Keys == s.auctions.Keys && r.bids == s.bids
    ensures forall id :: id in s.auctions && DueForClosing(s.auctions[id], now) ==>
      r.auctions[id] == Close(s.auctions[id])
    ensures forall id :: id in s.auctions && !DueForClosing(s.auctions[id], now) ==>
      r.auctions[id] == s.auctions[id]
  {
    var auctions := map id | id in s.auctions ::
      if DueForClosing(s.auctions[id], now) then Close(s.auctions[id]) else s.auctions[id];
    s.(auctions := auctions)
  }

  /** A sweep's new store and the auctions it closed, keyed by id. */
  datatype Sweep = Sweep(store: Store, completed: map<AuctionId, Auction>)

  /**
   * `checkAndGetNewlyCompletedAuctions()`: the same sweep, also returning the
   * closed auctions. The Java list holds the very objects it then closes, so
   * each reported auction is the closed record.
   */
  function CheckAndGetNewlyCompleted(s: Store, now: Time): (r: Sweep)
    ensures r.store.auctions.Keys == s.auctions.Keys && r.store.bids == s.bids
    ensures r.completed.Keys == set id | id in s.auctions && DueForClosing(s.auctions[id], now)
    ensures forall id :: id in r.completed ==> IsClosed(r.completed[id]) && r.store.auctions[id] == r.completed[id]
    ensures forall id :: id in r.completed ==> r.completed[id] == Close(s.auctions[id])
    ensures forall id :: id in s.auctions && id !in r.completed ==> r.store.auctions[id] == s.auctions[id]
  {
    var closed := map id | id in s.auctions && DueForClosing(s.auctions[id], now) :: Close(s.auctions[id]);
    Sweep(CheckAndUpdateExpired(s, now), closed)
  }

  /** `getActiveAuctions()`: the query `isActive == true && status == "ACTIVE"`. */
  function ActiveAuctions(s: Store): (r: set<AuctionId>)
    ensures forall id :: id in r <==> id in s.auctions && s.auctions[id].isActive && s.auctions[id].status == Active
  {
    set id | id in s.auctions && s.auctions[id].isActive && s.auctions[id].status == Active
  }

  /**
   * The listing and the bid guard agree on activity: a bid on a listed
   * auction is never refused as unknown or inactive, and an auction left out
   * of the listing is either refused so or stored with a status other than
   * Active, which `placeBid` does not look at.
   */
  lemma ListedAuctionPassesActivityGuard(s: Store, bid: Bid, now: Time)
    ensures bid.auctionId in ActiveAuctions(s) ==>
      PlaceBid(s, bid, now) != Failure(AuctionNotFound) && PlaceBid(s, bid, now) != Failure(AuctionNotActive)
    ensures bid.auctionId !in ActiveAuctions(s) ==>
      || PlaceBid(s, bid, now) == Failure(AuctionNotFound)
      || PlaceBid(s, bid, now) == Failure(AuctionNotActive)
      || (bid.auctionId in s.auctions && s.auctions[bid.auctionId].status != Active)
  {
  }

  // ---------------------------------------------------------------------------
  // Properties relating the operations
  // ---------------------------------------------------------------------------

  /**
   * For an active auction with an end time, the bid guard "has ended" and the
   * sweep's selection are the same condition: no instant is both too late to
   * bid and too early to be swept.
   */
  lemma BidDeadlineMatchesSweep(a: Auction, now: Time)
    requires a.isActive && a.endTime.Some?
    ensures HasEnded(a, now) <==> DueForClosing(a, now)
  {
  }

  /** At `now == endTime` a qualifying bid is accepted and the sweep leaves the auction alone. */
  lemma BoundaryAtEndTime(s: Store, bid: Bid)
    requires bid.auctionId in s.auctions && bid.id !in s.bids
    requires var a := s.auctions[bid.auctionId];
      a.isActive && a.endTime.Some? && bid.amount > a.currentHighestBid
    ensures var now := s.auctions[bid.auctionId].endTime.value;
      && PlaceBid(s, bid, now).Success?
      && bid.auctionId !in CheckAndGetNewlyCompleted(s, now).completed
  {
  }

  /** An accepted bid moves the deadline past `now`, so the same sweep cannot close the auction. */
  lemma AcceptedBidSurvivesSweep(s: Store, bid: Bid, now: Time)
    requires PlaceBid(s, bid, now).Success?
    requires s.auctions[bid.auctionId].durationMinutes >= 0
    ensures bid.auctionId !in CheckAndGetNewlyCompleted(PlaceBid(s, bid, now).value, now).completed
  {
  }

  /** A second `endAuction` on the same auction reports that it is already completed. */
  lemma EndAuctionTwiceFails(s: Store, id: AuctionId)
    requires EndAuction(s, id).Success?
    ensures EndAuction(EndAuction(s, id).value, id) == Failure(AlreadyCompleted)
  {
  }

  /** After `endAuction`, every bid on that auction is rejected as not active. */
  lemma BidAfterEndAuctionRejected(s: Store, id: AuctionId, bid: Bid, now: Time)
    requires EndAuction(s, id).Success?
    requires bid.auctionId == id
    ensures PlaceBid(EndAuction(s, id).value, bid, now) == Failure(AuctionNotActive)
  {
  }

  /** A sweep repeated at the same instant reports nothing and changes nothing. */
  lemma {:induction false} SweepIdempotent(s: Store, now: Time)
    ensures var first := CheckAndGetNewlyCompleted(s, now);
      && CheckAndGetNewlyCompleted(first.store, now).completed == map[]
      && CheckAndGetNewlyCompleted(first.store, now).store == first.store
  {
    var first := CheckAndGetNewlyCompleted(s, now);
    var second := CheckAndGetNewlyCompleted(first.store, now);
    forall id | id in first.store.auctions
      ensures !DueForClosing(first.store.auctions[id], now)
    {
      if DueForClosing(s.auctions[id], now) {
        assert first.store.auctions[id] == Close(s.auctions[id]);
      }
    }
    assert second.completed.Keys == {};
    assert second.store.auctions == first.store.auctions;
  }

  /** Both sweeps make the same change to the store. */
  lemma SweepsAgree(s: Store, now: Time)
    ensures CheckAndGetNewlyCompleted(s, now).store == CheckAndUpdateExpired(s, now)
  {
  }

  /** After a sweep, no auction listed as active is past its deadline. */
  lemma ActiveAfterSweepNotDue(s: Store, now: Time, id: AuctionId)
    requires id in ActiveAuctions(CheckAndUpdateExpired(s, now))
    ensures !DueForClosing(CheckAndUpdateExpired(s, now).auctions[id], now)
  {
  }

  // ---------------------------------------------------------------------------
  // Decoding stored documents (`documentToAuction`) and encoding them back
  // ---------------------------------------------------------------------------

  /** A stored auction document; a `None` field is absent from the document. */
  datatype AuctionDoc = AuctionDoc(
    id: AuctionId,
    productId: Option<ProductId>,
    sellerId: Option<UserId>,
    startingPrice: Option<Money>,
    currentHighestBid: Option<Money>,
    currentHighestBidderId: Option<UserId>,
    startTime: Option<Time>,
    endTime: Option<Time>,
    isActive: Option<bool>,
    isCompleted: Option<bool>,
    status: Option<string>,
    totalBids: Option<int>,
    durationMinutes: Option<int>)

  /** Unboxing an absent price into a `double` setter throws. */
  datatype DecodeError = MissingPrice

  /** The duration assumed when a document stores none. */
  const DefaultDurationMinutes: int := 60

  function StatusName(st: Status): Option<string> {
    match st
    case Pending => Some("PENDING")
    case Active => Some("ACTIVE")
    case Completed => Some("COMPLETED")
    case Other(name) => name
  }

  function ParseStatus(name: Option<string>): Status {
    if name == Some("PENDING") then Pending
    else if name == Some("ACTIVE") then Active
    else if name == Some("COMPLETED") then Completed
    else Other(name)
  }

  /** A status that `ParseStatus` reads back as itself: `Other` never hides a known name. */
  predicate CanonicalStatus(st: Status) {
    st.Other? ==> st.name !in {Some("PENDING"), Some("ACTIVE"), Some("COMPLETED")}
  }

  function OptionOr<T>(o: Option<T>, default: T): T {
    if o.Some? then o.value else default
  }

  /**
   * `documentToAuction`: absent flags read as false, an absent bid count as 0,
   * an absent duration as 60 minutes; an absent price is an error.
   */
  function DecodeAuction(d: AuctionDoc): (r: Result<Auction, DecodeError>)
    ensures r.Failure? <==> d.startingPrice.None? || d.currentHighestBid.None?
    ensures r.Success? ==>
      && (d.isActive.None? ==> !r.value.isActive)
      && (d.isCompleted.None? ==> !r.value.isCompleted)
      && (d.totalBids.None? ==> r.value.totalBids == 0)
      && (d.durationMinutes.None? ==> r.value.durationMinutes == DefaultDurationMinutes)
      && CanonicalStatus(r.value.status)
  {
    if d.startingPrice.None? || d.currentHighestBid.None? then Failure(MissingPrice)
    else Success(Auction(
      d.id, d.productId, d.sellerId, d.startingPrice.value, d.currentHighestBid.value,
      d.currentHighestBidderId, d.startTime, d.endTime,
      OptionOr(d.isActive, false), OptionOr(d.isCompleted, false), ParseStatus(d.status),
      OptionOr(d.totalBids, 0), OptionOr(d.durationMinutes, DefaultDurationMinutes)))
  }

  /** `auctionToDocument`: every field written; absent times stay absent. */
  function EncodeAuction(a: Auction): AuctionDoc {
    AuctionDoc(a.id, a.productId, a.sellerId, Some(a.startingPrice), Some(a.currentHighestBid),
               a.currentHighestBidderId, a.startTime, a.endTime, Some(a.isActive),
               Some(a.isCompleted), StatusName(a.status), Some(a.totalBids), Some(a.durationMinutes))
  }

  /** Writing an auction and reading it back gives the same auction. */
  lemma DecodeEncodeAuction(a: Auction)
    requires CanonicalStatus(a.status)
    ensures DecodeAuction(EncodeAuction(a)) == Success(a)
  {
  }
}

=== FILE: auctions.dfy ===
/**
 * The Auction and Bid records and the time and winner predicates defined on
 * them (models/Auction.java, models/Bid.java).
 *
 * Clock reads (`LocalDateTime.now()`) become a `now` parameter; times are whole
 * seconds and money is whole cents.
 */
module Auctions {
  import opened Wrappers

  type AuctionId = nat
  type BidId = nat
  type UserId = nat
  type ProductId = nat

  /** A point in time, in whole seconds. */
  type Time = int

  /** A monetary amount, in cents. */
  type Money = int

  const SecondsPerMinute: int := 60

  /** `t.plusMinutes(minutes)`. */
  function PlusMinutes(t: Time, minutes: int): Time {
    t + minutes * SecondsPerMinute
  }

  /**
   * The `status` string of an auction. The code only ever writes PENDING,
   * ACTIVE and COMPLETED; a stored document may hold anything else, or nothing.
   */
  datatype Status = Pending | Active | Completed | Other(name: Option<string>)

  datatype Auction = Auction(
    id: AuctionId,
    productId: Option<ProductId>,
    sellerId: Option<UserId>,
    startingPrice: Money,
    currentHighestBid: Money,
    currentHighestBidderId: Option<UserId>,
    startTime: Option<Time>,
    endTime: Option<Time>,
    isActive: bool,
    isCompleted: bool,
    status: Status,
    totalBids: int,
    durationMinutes: int)

  datatype Bid = Bid(
    id: BidId,
    auctionId: AuctionId,
    bidderId: UserId,
    amount: Money,
    placedAt: Time,
    isWinning: bool,
    bidderName: string)

  /** `new Auction()`: a pending, inactive record with no bids and no times. */
  function BlankAuction(id: AuctionId): (a: Auction)
    ensures a.id == id
    ensures a.status == Pending && !a.isActive && !a.isCompleted
    ensures a.totalBids == 0 && a.currentHighestBidderId.None?
    ensures a.startTime.None? && a.endTime.None?
  {
    Auction(id, None, None, 0, 0, None, None, None, false, false, Pending, 0, 0)
  }

  /**
   * `new Auction(productId, sellerId, startingPrice, startTime, endTime)`:
   * the blank record with the listing filled in and the highest bid starting
   * at the starting price.
   */
  function ListedAuction(id: AuctionId, productId: ProductId, sellerId: UserId,
                         startingPrice: Money, startTime: Time, endTime: Time): (a: Auction)
    ensures a.currentHighestBid == a.startingPrice == startingPrice
    ensures a.productId == Some(productId) && a.sellerId == Some(sellerId)
    ensures a.startTime == Some(startTime) && a.endTime == Some(endTime)
    ensures a.status == Pending && !a.isActive && !a.isCompleted && a.totalBids == 0
  {
    BlankAuction(id).(productId := Some(productId), sellerId := Some(sellerId),
                      startingPrice := startingPrice, currentHighestBid := startingPrice,
                      startTime := Some(startTime), endTime := Some(endTime))
  }

  /**
   * `hasEnded()`: the clock is strictly after the end time. The Java method
   * dereferences `endTime` unconditionally, so callers must supply one.
   */
  predicate HasEnded(a: Auction, now: Time)
    requires a.endTime.Some?
  {
    now > a.endTime.value
  }

  /** `hasExpired()`: like `hasEnded()`, but false when there is no end time. */
  predicate HasExpired(a: Auction, now: Time) {
    a.endTime.Some? && now > a.endTime.value
  }

  /**
   * `isRunning()`: active and strictly between start and end. The `&&`
   * short-circuits, so the times are read only for an active auction.
   */
  function IsRunning(a: Auction, now: Time): (r: bool)
    requires a.isActive ==> a.startTime.Some? && a.endTime.Some?
    ensures r ==> a.isActive && !HasExpired(a, now) && WinnerId(a, now).None?
    ensures r ==> a.startTime.Some? && a.startTime.value < now
    ensures a.isActive && HasExpired(a, now) ==> !r
    ensures a.isActive && !HasExpired(a, now) && now > a.startTime.value ==> (r <==> now != a.endTime.value)
  {
    a.isActive && a.startTime.value < now < a.endTime.value
  }

  /**
   * The winner rule shared by the announcements and the admin history: a
   * bidder is recorded and the highest bid is strictly above the starting price.
   */
  predicate HasWinningBid(a: Auction) {
    a.currentHighestBidderId.Some? && a.currentHighestBid > a.startingPrice
  }

  /** `getWinnerId()`: the highest bidder, once the auction has expired with a winning bid. */
  function WinnerId(a: Auction, now: Time): (r: Option<UserId>)
    ensures r.Some? <==> HasExpired(a, now) && HasWinningBid(a)
    ensures r.Some? ==> r == a.currentHighestBidderId
  {
    if HasExpired(a, now) && a.currentHighestBidderId.Some? && a.currentHighestBid > a.startingPrice
    then a.currentHighestBidderId
    else None
  }

  /** `new Bid(auctionId, bidderId, amount, name)` created at `now`: never winning yet. */
  function NewBid(id: BidId, auctionId: AuctionId, bidderId: UserId, amount: Money,
                  bidderName: string, now: Time): (b: Bid)
    ensures !b.isWinning && b.placedAt == now
    ensures b.id == id && b.auctionId == auctionId && b.bidderId == bidderId && b.amount == amount
  {
    Bid(id, auctionId, bidderId, amount, now, false, bidderName)
  }

  /** An auction that expired exactly at its end time is not yet "ended". */
  lemma EndIsExclusive(a: Auction)
    requires a.endTime.Some?
    ensures !HasEnded(a, a.endTime.value) && !HasExpired(a, a.endTime.value)
    ensures HasEnded(a, a.endTime.value + 1)
  {
  }

  /** Where an end time exists, `hasExpired()` and `hasEnded()` agree. */
  lemma ExpiredIffEnded(a: Auction, now: Time)
    requires a.endTime.Some?
    ensures HasExpired(a, now) <==> HasEnded(a, now)
  {
  }

  /** A running auction has neither ended nor expired, so it has no winner yet. */
  lemma RunningHasNoWinner(a: Auction, now: Time)
    requires a.isActive ==> a.startTime.Some? && a.endTime.Some?
    requires IsRunning(a, now)
    ensures a.endTime.Some? && !HasEnded(a, now) && WinnerId(a, now).None?
  {
  }

  /** A blank or freshly listed auction is not active, so it is never running. */
  lemma InactiveNeverRunning(id: AuctionId, productId: ProductId, sellerId: UserId,
                             startingPrice: Money, startTime: Time, endTime: Time, now: Time)
    ensures !IsRunning(BlankAuction(id), now)
    ensures !IsRunning(ListedAuction(id, productId, sellerId, startingPrice, startTime, endTime), now)
  {
  }

  /** A freshly listed auction has no winner at any time: its highest bid is the starting price. */
  lemma ListedAuctionHasNoWinner(id: AuctionId, productId: ProductId, sellerId: UserId,
                                 startingPrice: Money, startTime: Time, endTime: Time, now: Time)
    ensures WinnerId(ListedAuction(id, productId, sellerId, startingPrice, startTime, endTime), now).None?
  {
  }
}

=== FILE: buyer.dfy ===
/**
 * The pure rules inside services/impl/BuyerServiceImpl.java: the time-left
 * label, the purchase quantity and stock update, the payment-method menu, the
 * browse and refund filters, and the bid pre-check made before the auction
 * engine is called.
 *
 * Console reads become parameters: the number typed at a menu is `choice`,
 * the quantity typed for a product is `entered`.
 */
module Buyer {
  import opened Wrappers
  import opened Auctions
  import opened AuctionService
  import opened Catalog
  import Decimal
  import Seqs

  // ---------------------------------------------------------------------------
  // getTimeLeft
  // ---------------------------------------------------------------------------

  const MinutesPerHour: int := 60
  const MinutesPerDay: int := 1440

  /** The four shapes of the time-left label. */
  datatype Remaining =
    | Expired
    | Minutes(minutes: nat)
    | HoursMinutes(hours: nat, minutes: nat)
    | DaysHours(days: nat, hours: nat)

  /** `Duration.between(now, end).toMinutes()`: whole minutes, truncated toward zero. */
  function WholeMinutes(now: Time, end: Time): int {
    var seconds := end - now;
    if seconds >= 0 then seconds / SecondsPerMinute else -((-seconds) / SecondsPerMinute)
  }

  /**
   * `getTimeLeft(now, endTime)`: "EXPIRED" strictly after the end, otherwise
   * the whole minutes left split into minutes, hours and minutes, or days and
   * hours.
   */
  function TimeLeft(now: Time, end: Time): (r: Remaining)
    ensures r.Expired? <==> now > end
    ensures r.Minutes? ==> r.minutes < MinutesPerHour && r.minutes * SecondsPerMinute <= end - now
    ensures r.Minutes? ==> end - now < (r.minutes + 1) * SecondsPerMinute
    ensures r.HoursMinutes? ==>
      && 1 <= r.hours < 24 && r.minutes < MinutesPerHour
      && r.hours * MinutesPerHour + r.minutes == WholeMinutes(now, end)
    ensures r.DaysHours? ==>
      && r.days >= 1 && r.hours < 24
      && r.days * MinutesPerDay + r.hours * MinutesPerHour <= WholeMinutes(now, end)
      && WholeMinutes(now, end) < r.days * MinutesPerDay + (r.hours + 1) * MinutesPerHour
  {
    if now > end then Expired
    else
      var minutes := WholeMinutes(now, end);
      if minutes < MinutesPerHour then Minutes(minutes)
      else if minutes < MinutesPerDay then HoursMinutes(minutes / MinutesPerHour, minutes % MinutesPerHour)
      else DaysHours(minutes / MinutesPerDay, (minutes % MinutesPerDay) / MinutesPerHour)
  }

  /** The label as printed. */
  function Label(r: Remaining): string {
    match r
    case Expired => "EXPIRED"
    case Minutes(m) => Decimal.DigitsOf(m) + " min"
    case HoursMinutes(h, m) => Decimal.DigitsOf(h) + "h " + Decimal.DigitsOf(m) + "m"
    case DaysHours(d, h) => Decimal.DigitsOf(d) + "d " + Decimal.DigitsOf(h) + "h"
  }

  /** The label reads "EXPIRED" exactly when the clock is past the end time. */
  lemma LabelExpiredIffPastEnd(now: Time, end: Time)
    ensures Label(TimeLeft(now, end)) == "EXPIRED" <==> now > end
  {
    var r := TimeLeft(now, end);
    if !r.Expired? {
      var digits := match r
        case Minutes(m) => Decimal.DigitsOf(m)
        case HoursMinutes(h, _) => Decimal.DigitsOf(h)
        case DaysHours(d, _) => Decimal.DigitsOf(d);
      assert Label(r)[0] == digits[0];
      assert Decimal.IsDigit(digits[0]);
    }
  }

  /** At the end time itself the label is "0 min", and a minute later it is "EXPIRED". */
  lemma LabelAtEndTime(end: Time)
    ensures Label(TimeLeft(end, end)) == "0 min"
    ensures Label(TimeLeft(end + SecondsPerMinute, end)) == "EXPIRED"
  {
  }

  /** The label says "expired" exactly when `hasEnded()` would. */
  lemma TimeLeftAgreesWithHasEnded(a: Auction, now: Time)
    requires a.endTime.Some?
    ensures TimeLeft(now, a.endTime.value).Expired? <==> HasEnded(a, now)
  {
  }

  // ---------------------------------------------------------------------------
  // purchaseProduct: quantity and stock
  // ---------------------------------------------------------------------------

  /**
   * The quantity bought of one selected product: one when the stock is at
   * most one (nothing is asked), otherwise the entered number if it lies in
   * `1..stock`. `None` is "Invalid quantity. Skipping this product."
   */
  function PurchaseQuantity(stock: int, entered: int): (r: Option<int>)
    ensures stock <= 1 ==> r == Some(1)
    ensures stock > 1 ==> (r.Some? <==> 1 <= entered <= stock)
    ensures stock > 1 && r.Some? ==> r.value == entered
    ensures stock >= 1 && r.Some? ==> 1 <= r.value <= stock
  {
    if stock > 1 then
      if entered < 1 || entered > stock then None else Some(entered)
    else Some(1)
  }

  datatype PurchaseItem = PurchaseItem(product: Product, quantity: int)

  /**
   * The purchase items built from the selected products and the quantities
   * entered for them: skipped products are dropped, the rest keep their order.
   */
  function PurchaseItems(selected: seq<Product>, entered: seq<int>): (r: seq<PurchaseItem>)
    requires |entered| == |selected|
    ensures |r| <= |selected|
    ensures forall i :: 0 <= i < |r| ==> r[i].product in selected
    ensures forall i :: 0 <= i < |r| ==>
      r[i].product.quantity >= 1 ==> 1 <= r[i].quantity <= r[i].product.quantity
    ensures forall i :: 0 <= i < |selected| && selected[i].quantity <= 1 ==>
      PurchaseItem(selected[i], 1) in r
    ensures forall i :: 0 <= i < |selected| && selected[i].quantity > 1 && 1 <= entered[i] <= selected[i].quantity ==>
      PurchaseItem(selected[i], entered[i]) in r
  {
    if |selected| == 0 then []
    else
      var rest := PurchaseItems(selected[1..], entered[1..]);
      assert forall i :: 1 <= i < |selected| ==> selected[i] == selected[1..][i - 1] && entered[i] == entered[1..][i - 1];
      match PurchaseQuantity(selected[0].quantity, entered[0])
      case None => rest
      case Some(q) => [PurchaseItem(selected[0], q)] + rest
  }

  /** One selected product gives one item, or none when its quantity was refused. */
  lemma PurchaseItemsSingle(p: Product, e: int)
    ensures PurchaseItems([p], [e]) ==
      match PurchaseQuantity(p.quantity, e)
      case None => []
      case Some(q) => [PurchaseItem(p, q)]
  {
    assert [p][1..] == [] && [e][1..] == [];
  }

  /**
   * Items follow the selection order: the items for two runs of selections
   * are the items for the first run followed by those for the second.
   */
  lemma {:induction false} PurchaseItemsAppend(s1: seq<Product>, e1: seq<int>, s2: seq<Product>, e2: seq<int>)
    requires |e1| == |s1| && |e2| == |s2|
    ensures PurchaseItems(s1 + s2, e1 + e2) == PurchaseItems(s1, e1) + PurchaseItems(s2, e2)
    decreases |s1|
  {
    if |s1| == 0 {
      assert s1 + s2 == s2 && e1 + e2 == e2;
    } else {
      var s, e := s1 + s2, e1 + e2;
      assert s[0] == s1[0] && s[1..] == s1[1..] + s2;
      assert e[0] == e1[0] && e[1..] == e1[1..] + e2;
      PurchaseItemsAppend(s1[1..], e1[1..], s2, e2);
    }
  }

  /**
   * The stock update after a recorded purchase: buying the whole stock marks
   * the product sold and unavailable at `now`; otherwise the stock drops by
   * the quantity bought and nothing else changes.
   */
  function ApplyPurchase(p: Product, quantity: int, now: Time): (r: Product)
    ensures quantity == p.quantity ==>
      && r.isSold && !r.isAvailable && r.dateSold == Some(now) && r.quantity == p.quantity
      && r.(isSold := p.isSold, isAvailable := p.isAvailable, dateSold := p.dateSold) == p
    ensures quantity != p.quantity ==>
      r.quantity + quantity == p.quantity && r.(quantity := p.quantity) == p
  {
    if quantity == p.quantity then p.(isSold := true, isAvailable := false, dateSold := Some(now))
    else p.(quantity := p.quantity - quantity)
  }

  /**
   * A purchase of an offered product that is in stock leaves it either no
   * longer offered or offered with at least one unit left.
   */
  lemma PurchaseKeepsOfferedStockPositive(p: Product, entered: int, now: Time)
    requires IsOffered(p) && p.quantity >= 1
    requires PurchaseQuantity(p.quantity, entered).Some?
    ensures var r := ApplyPurchase(p, PurchaseQuantity(p.quantity, entered).value, now);
      IsOffered(r) ==> r.quantity >= 1
  {
  }

  /**
   * An offered product recorded with no stock is still sold one unit: its
   * stock goes to -1 and it stays on offer.
   */
  lemma EmptyStockPurchase(p: Product, entered: int, now: Time)
    requires IsOffered(p) && p.quantity == 0
    ensures PurchaseQuantity(p.quantity, entered) == Some(1)
    ensures ApplyPurchase(p, 1, now).quantity == -1 && IsOffered(ApplyPurchase(p, 1, now))
  {
  }

  // ---------------------------------------------------------------------------
  // Payment method
  // ---------------------------------------------------------------------------

  /** The payment menu, in the order it is printed. */
  const PaymentMethods: seq<string> := ["Credit Card", "Debit Card", "PayPal", "Bank Transfer"]

  /** `getPaymentMethodByChoice(choice)`: the chosen menu entry, and "Credit Card" for anything else. */
  function PaymentMethod(choice: int): (r: string)
    ensures r in PaymentMethods
    ensures 1 <= choice <= |PaymentMethods| ==> r == PaymentMethods[choice - 1]
    ensures !(1 <= choice <= |PaymentMethods|) ==> r == PaymentMethods[0]
  {
    match choice
    case 1 => "Credit Card"
    case 2 => "Debit Card"
    case 3 => "PayPal"
    case 4 => "Bank Transfer"
    case _ => "Credit Card"
  }

  /** The four menu entries name four different methods. */
  lemma PaymentMethodsDistinct(i: int, j: int)
    requires 1 <= i <= 4 && 1 <= j <= 4 && i != j
    ensures PaymentMethod(i) != PaymentMethod(j)
  {
  }

  // ---------------------------------------------------------------------------
  // Browse and refund filters
  // ---------------------------------------------------------------------------

  /** `browseProductsByCategory`: the listed products are exactly the offered ones, in order. */
  function Browsable(products: seq<Product>): (r: seq<Product>)
    ensures forall i :: 0 <= i < |r| ==> IsOffered(r[i])
    ensures forall p :: p in products && IsOffered(p) ==> p in r
    ensures forall p :: multiset(r)[p] == if IsOffered(p) then multiset(products)[p] else 0
  {
    Seqs.Filter(products, IsOffered)
  }

  /** The transaction fields the refund screen reads. */
  datatype Transaction = Transaction(id: nat, productId: ProductId, amount: Money, status: Option<string>)

  predicate IsCompletedTransaction(t: Transaction) {
    t.status == Some("COMPLETED")
  }

  /** `requestRefund`: only COMPLETED transactions are offered, in their stored order. */
  function RefundCandidates(ts: seq<Transaction>): (r: seq<Transaction>)
    ensures forall i :: 0 <= i < |r| ==> r[i].status == Some("COMPLETED")
    ensures forall t :: t in ts && t.status == Some("COMPLETED") ==> t in r
    ensures forall t :: multiset(r)[t] == if IsCompletedTransaction(t) then multiset(ts)[t] else 0
  {
    Seqs.Filter(ts, IsCompletedTransaction)
  }

  /**
   * The candidates keep the stored order: the candidates of two runs of
   * transactions are those of the first run followed by those of the second,
   * and one transaction is a candidate exactly when it is COMPLETED.
   */
  lemma RefundCandidatesKeepOrder(ts: seq<Transaction>, us: seq<Transaction>, t: Transaction)
    ensures RefundCandidates(ts + us) == RefundCandidates(ts) + RefundCandidates(us)
    ensures RefundCandidates([t]) == if IsCompletedTransaction(t) then [t] else []
  {
    Seqs.FilterAppend(ts, us, IsCompletedTransaction);
    Seqs.FilterSingle(t, IsCompletedTransaction);
  }

  /** The transaction chosen for a refund: the `choice`-th candidate, if the choice is on the menu. */
  function RefundSelection(ts: seq<Transaction>, choice: int): (r: Option<Transaction>)
    ensures r.Some? ==> r.value in ts && IsCompletedTransaction(r.value)
    ensures r.Some? <==> 1 <= choice <= |RefundCandidates(ts)|
    ensures r.Some? ==> r.value == RefundCandidates(ts)[choice - 1]
  {
    var candidates := RefundCandidates(ts);
    var r := Seqs.Pick(candidates, choice);
    assert r.Some? ==> r.value in multiset(candidates);
    r
  }

  /**
   * Menu entry `choice` is the stored transaction that is COMPLETED and has
   * exactly `choice - 1` COMPLETED transactions stored before it.
   */
  lemma RefundSelectionPosition(ts: seq<Transaction>, choice: int) returns (i: nat)
    requires 1 <= choice <= |RefundCandidates(ts)|
    ensures i < |ts| && IsCompletedTransaction(ts[i])
    ensures RefundSelection(ts, choice) == Some(ts[i])
    ensures |RefundCandidates(ts[..i])| == choice - 1
  {
    i := Seqs.FilterPosition(ts, IsCompletedTransaction, choice - 1);
  }

  // ---------------------------------------------------------------------------
  // placeBid pre-check
  // ---------------------------------------------------------------------------

  datatype PreCheckError = InvalidSelection | BidNotAboveCurrent

  /**
   * The checks `placeBid` makes on the listed snapshot before calling the
   * engine: the menu choice must name a listed auction, then the amount must
   * exceed that auction's current highest bid.
   */
  function BidPreCheck(listing: seq<Auction>, choice: int, amount: Money): (r: Result<Auction, PreCheckError>)
    ensures !(1 <= choice <= |listing|) ==> r == Failure(InvalidSelection)
    ensures 1 <= choice <= |listing| ==>
      && (amount <= listing[choice - 1].currentHighestBid ==> r == Failure(BidNotAboveCurrent))
      && (amount > listing[choice - 1].currentHighestBid ==> r == Success(listing[choice - 1]))
  {
    match Seqs.Pick(listing, choice)
    case None => Failure(InvalidSelection)
    case Some(a) => if amount <= a.currentHighestBid then Failure(BidNotAboveCurrent) else Success(a)
  }

  /** The listing shows active auctions exactly as they are stored. */
  predicate ListingIsCurrent(s: Store, listing: seq<Auction>) {
    forall i :: 0 <= i < |listing| ==>
      listing[i].id in ActiveAuctions(s) && s.auctions[listing[i].id] == listing[i]
  }

  /**
   * When the listing is still current, a bid that passed the pre-check is not
   * refused by the engine as unknown, inactive or too low; only the end time
   * or a duplicate bid id can still stop it.
   */
  lemma PreCheckedBidReachesEngineChecks(s: Store, listing: seq<Auction>, choice: int, bid: Bid, now: Time)
    requires ListingIsCurrent(s, listing)
    requires BidPreCheck(listing, choice, bid.amount).Success?
    requires bid.auctionId == BidPreCheck(listing, choice, bid.amount).value.id
    ensures PlaceBid(s, bid, now).Success?
         || PlaceBid(s, bid, now) == Failure(AuctionHasEnded)
         || PlaceBid(s, bid, now) == Failure(StoreFailure(MissingEndTime))
         || PlaceBid(s, bid, now) == Failure(StoreFailure(DuplicateKey))
  {
    assert listing[choice - 1].id in ActiveAuctions(s);
  }
}

=== FILE: catalog.dfy ===
/**
 * The product catalogue of services/impl/ProductServiceImpl.java: the stored
 * product documents and their decoder, the "available" and "sold" queries,
 * `markProductAsSold`, and the deduplicated, sorted category list.
 *
 * The `products` collection is a sequence of documents in natural order. A
 * query is a filter over the stored documents, decoded afterwards, so a
 * field that is absent from a document matches no equality query even where
 * the decoder supplies a default for it.
 */
module Catalog {
  import opened Wrappers
  import opened Auctions
  import Seqs

  datatype Product = Product(
    id: ProductId,
    name: Option<string>,
    category: Option<string>,
    price: Money,
    sellerId: Option<UserId>,
    isAvailable: bool,
    isSold: bool,
    dateSold: Option<Time>,
    quantity: int)

  /** Offered for sale: available and not yet sold. */
  predicate IsOffered(p: Product) {
    p.isAvailable && !p.isSold
  }

  /**
   * `new Product(name, description, category, price, sellerId, condition,
   * quantity)`: the default constructor's flags with the listing filled in.
   */
  function NewProduct(id: ProductId, name: string, category: string, price: Money,
                      sellerId: UserId, quantity: int): (p: Product)
    ensures IsOffered(p) && p.dateSold.None?
    ensures p.id == id && p.category == Some(category) && p.price == price
    ensures p.sellerId == Some(sellerId) && p.quantity == quantity
  {
    Product(id, Some(name), Some(category), price, Some(sellerId), true, false, None, quantity)
  }

  // ---------------------------------------------------------------------------
  // Stored documents
  // ---------------------------------------------------------------------------

  /** A stored product document; a `None` field is absent from the document. */
  datatype ProductDoc = ProductDoc(
    id: ProductId,
    name: Option<string>,
    category: Option<string>,
    price: Option<Money>,
    sellerId: Option<UserId>,
    isAvailable: Option<bool>,
    isSold: Option<bool>,
    dateSold: Option<Time>,
    quantity: Option<int>)

  /** Unboxing an absent price into the `double` setter throws. */
  datatype DecodeError = MissingPrice

  /** The quantity assumed when a document stores none. */
  const DefaultQuantity: int := 1

  /**
   * `documentToProduct`: an absent price is an error; absent flags read as
   * available and unsold and an absent quantity as one.
   */
  function DecodeProduct(d: ProductDoc): (r: Result<Product, DecodeError>)
    ensures r.Failure? <==> d.price.None?
    ensures r.Success? ==>
      && r.value.id == d.id && r.value.category == d.category && r.value.price == d.price.value
      && (r.value.isAvailable <==> d.isAvailable != Some(false))
      && (r.value.isSold <==> d.isSold == Some(true))
      && (d.quantity.None? ==> r.value.quantity == DefaultQuantity)
      && (d.quantity.Some? ==> r.value.quantity == d.quantity.value)
  {
    if d.price.None? then Failure(MissingPrice)
    else Success(Product(
      d.id, d.name, d.category, d.price.value, d.sellerId,
      OptionOr(d.isAvailable, true), OptionOr(d.isSold, false), d.dateSold,
      OptionOr(d.quantity, DefaultQuantity)))
  }

  function OptionOr<T>(o: Option<T>, default: T): T {
    if o.Some? then o.value else default
  }

  /** `productToDocument`: every field written. */
  function EncodeProduct(p: Product): ProductDoc {
    ProductDoc(p.id, p.name, p.category, Some(p.price), p.sellerId,
               Some(p.isAvailable), Some(p.isSold), p.dateSold, Some(p.quantity))
  }

  /** Decodes every document in order; the first one that cannot be decoded aborts the listing. */
  function DecodeAll(docs: seq<ProductDoc>): (r: Result<seq<Product>, DecodeError>)
    ensures r.Success? <==> forall i :: 0 <= i < |docs| ==> docs[i].price.Some?
    ensures r.Success? ==> |r.value| == |docs|
    ensures r.Success? ==> forall i :: 0 <= i < |docs| ==> DecodeProduct(docs[i]) == Success(r.value[i])
  {
    if |docs| == 0 then Success([])
    else
      match DecodeProduct(docs[0])
      case Failure(e) => Failure(e)
      case Success(p) =>
        match DecodeAll(docs[1..])
        case Failure(e) => Failure(e)
        case Success(ps) => Success([p] + ps)
  }

  // ---------------------------------------------------------------------------
  // Queries
  // ---------------------------------------------------------------------------

  /** The filter `isAvailable == true && isSold == false` of `getAvailableProducts`. */
  predicate AvailableQuery(d: ProductDoc) {
    d.isAvailable == Some(true) && d.isSold == Some(false)
  }

  /** The filter `isSold == true` of `getSoldProducts`. */
  predicate SoldQuery(d: ProductDoc) {
    d.isSold == Some(true)
  }

  /** A document the query kept was stored. */
  lemma MatchedIsStored(docs: seq<ProductDoc>, q: ProductDoc -> bool, j: nat)
    requires j < |Seqs.Filter(docs, q)|
    ensures Seqs.Filter(docs, q)[j] in docs
  {
    var matched := Seqs.Filter(docs, q);
    assert multiset(matched)[matched[j]] > 0;
  }

  /** A stored document the query matches is kept. */
  lemma StoredMatchIsKept(docs: seq<ProductDoc>, q: ProductDoc -> bool, i: nat) returns (j: nat)
    requires i < |docs| && q(docs[i])
    ensures j < |Seqs.Filter(docs, q)| && Seqs.Filter(docs, q)[j] == docs[i]
  {
    var matched := Seqs.Filter(docs, q);
    assert docs[i] in matched;
    j :| 0 <= j < |matched| && matched[j] == docs[i];
  }

  /**
   * Decoding the documents a query matches succeeds exactly when every
   * matching document has a price, and then lists the decoding of each of
   * them.
   */
  lemma DecodeMatched(docs: seq<ProductDoc>, q: ProductDoc -> bool)
    ensures DecodeAll(Seqs.Filter(docs, q)).Success? <==>
      forall i :: 0 <= i < |docs| && q(docs[i]) ==> docs[i].price.Some?
    ensures DecodeAll(Seqs.Filter(docs, q)).Success? ==>
      forall i :: 0 <= i < |docs| && q(docs[i]) ==> DecodeProduct(docs[i]).value in DecodeAll(Seqs.Filter(docs, q)).value
  {
    var matched := Seqs.Filter(docs, q);
    var r := DecodeAll(matched);
    if forall i :: 0 <= i < |docs| && q(docs[i]) ==> docs[i].price.Some? {
      forall j | 0 <= j < |matched|
        ensures matched[j].price.Some?
      {
        MatchedIsStored(docs, q, j);
      }
    }
    if r.Success? {
      forall i | 0 <= i < |docs| && q(docs[i])
        ensures docs[i].price.Some? && DecodeProduct(docs[i]).value in r.value
      {
        var j := StoredMatchIsKept(docs, q, i);
        assert DecodeProduct(matched[j]) == Success(r.value[j]);
      }
    }
  }

  /**
   * `getAvailableProducts()`: the decodings of the documents stored available
   * and unsold. It fails exactly when one of those documents lacks a price.
   */
  function AvailableProducts(docs: seq<ProductDoc>): (r: Result<seq<Product>, DecodeError>)
    ensures r.Success? <==> forall i :: 0 <= i < |docs| && AvailableQuery(docs[i]) ==> docs[i].price.Some?
    ensures r.Success? ==> forall i :: 0 <= i < |docs| && AvailableQuery(docs[i]) ==> DecodeProduct(docs[i]).value in r.value
    ensures r.Success? ==> forall i :: 0 <= i < |r.value| ==> IsOffered(r.value[i])
    ensures r.Success? ==> |r.value| <= |docs|
  {
    var matched := Seqs.Filter(docs, AvailableQuery);
    var r := DecodeAll(matched);
    DecodeMatched(docs, AvailableQuery);
    assert r.Success? ==> forall i :: 0 <= i < |r.value| ==> AvailableQuery(matched[i]);
    r
  }

  /**
   * `getSoldProducts()`: the decodings of the documents stored sold. It fails
   * exactly when one of those documents lacks a price.
   */
  function SoldProducts(docs: seq<ProductDoc>): (r: Result<seq<Product>, DecodeError>)
    ensures r.Success? <==> forall i :: 0 <= i < |docs| && SoldQuery(docs[i]) ==> docs[i].price.Some?
    ensures r.Success? ==> forall i :: 0 <= i < |docs| && SoldQuery(docs[i]) ==> DecodeProduct(docs[i]).value in r.value
    ensures r.Success? ==> forall i :: 0 <= i < |r.value| ==> r.value[i].isSold
    ensures r.Success? ==> |r.value| <= |docs|
  {
    var matched := Seqs.Filter(docs, SoldQuery);
    var r := DecodeAll(matched);
    DecodeMatched(docs, SoldQuery);
    assert r.Success? ==> forall i :: 0 <= i < |r.value| ==> SoldQuery(matched[i]);
    r
  }

  /**
   * Listing entry `k` is the decoding of the `k`-th matching document: the
   * listing keeps the stored order.
   */
  lemma ListingPosition(docs: seq<ProductDoc>, q: ProductDoc -> bool, k: nat) returns (i: nat)
    requires DecodeAll(Seqs.Filter(docs, q)).Success? && k < |DecodeAll(Seqs.Filter(docs, q)).value|
    ensures i < |docs| && q(docs[i])
    ensures DecodeProduct(docs[i]) == Success(DecodeAll(Seqs.Filter(docs, q)).value[k])
    ensures |Seqs.Filter(docs[..i], q)| == k
  {
    i := Seqs.FilterPosition(docs, q, k);
  }

  /**
   * Entry `k` of the available listing is the decoding of the stored document
   * that matches the query with exactly `k` matching documents before it.
   */
  lemma AvailableListingPosition(docs: seq<ProductDoc>, k: nat) returns (i: nat)
    requires AvailableProducts(docs).Success? && k < |AvailableProducts(docs).value|
    ensures i < |docs| && AvailableQuery(docs[i])
    ensures DecodeProduct(docs[i]) == Success(AvailableProducts(docs).value[k])
    ensures |Seqs.Filter(docs[..i], AvailableQuery)| == k
  {
    i := ListingPosition(docs, AvailableQuery, k);
  }

  /**
   * Entry `k` of the sold listing is the decoding of the stored document
   * that matches the query with exactly `k` matching documents before it.
   */
  lemma SoldListingPosition(docs: seq<ProductDoc>, k: nat) returns (i: nat)
    requires SoldProducts(docs).Success? && k < |SoldProducts(docs).value|
    ensures i < |docs| && SoldQuery(docs[i])
    ensures DecodeProduct(docs[i]) == Success(SoldProducts(docs).value[k])
    ensures |Seqs.Filter(docs[..i], SoldQuery)| == k
  {
    i := ListingPosition(docs, SoldQuery, k);
  }

  /** The sold query selects exactly the documents that decode as sold. */
  lemma SoldQueryMatchesDecoder(d: ProductDoc)
    requires d.price.Some?
    ensures SoldQuery(d) <==> DecodeProduct(d).value.isSold
  {
  }

  /**
   * On a document that stores both flags, the available query selects exactly
   * the documents that decode as offered for sale.
   */
  lemma AvailableQueryMatchesDecoder(d: ProductDoc)
    requires d.price.Some? && d.isAvailable.Some? && d.isSold.Some?
    ensures AvailableQuery(d) <==> IsOffered(DecodeProduct(d).value)
  {
  }

  /**
   * A document without the two flags decodes as offered for sale, yet the
   * available query does not select it.
   */
  lemma FlaglessDocumentNotListed(d: ProductDoc)
    requires d.price.Some? && d.isAvailable.None? && d.isSold.None?
    ensures IsOffered(DecodeProduct(d).value) && !AvailableQuery(d)
  {
  }

  /** Every product written by `productToDocument` reads back unchanged. */
  lemma DecodeEncodeProduct(p: Product)
    ensures DecodeProduct(EncodeProduct(p)) == Success(p)
    ensures AvailableQuery(EncodeProduct(p)) <==> IsOffered(p)
  {
  }

  // ---------------------------------------------------------------------------
  // markProductAsSold
  // ---------------------------------------------------------------------------

  /** The index of the first stored document with id `id`. */
  function FirstWithId(docs: seq<ProductDoc>, id: ProductId): (r: Option<nat>)
    ensures r.None? ==> forall i :: 0 <= i < |docs| ==> docs[i].id != id
    ensures r.Some? ==> r.value < |docs| && docs[r.value].id == id
    ensures r.Some? ==> forall j :: 0 <= j < r.value ==> docs[j].id != id
  {
    if |docs| == 0 then None
    else if docs[0].id == id then Some(0)
    else
      var rest := FirstWithId(docs[1..], id);
      assert forall i :: 1 <= i < |docs| ==> docs[i] == docs[1..][i - 1];
      if rest.None? then None else Some(rest.value + 1)
  }

  /** No two stored product documents share an id. */
  predicate UniqueProductIds(docs: seq<ProductDoc>) {
    forall i, j :: 0 <= i < j < |docs| ==> docs[i].id != docs[j].id
  }

  /**
   * `markProductAsSold(id)`: `updateOne(eq("_id", id), ...)` makes the first
   * document with that id sold and unavailable, stamped with the sale time;
   * every other document stays as it was. An id that matches no document
   * changes nothing.
   */
  function MarkProductAsSold(docs: seq<ProductDoc>, id: ProductId, now: Time): (r: seq<ProductDoc>)
    ensures |r| == |docs|
    ensures forall i :: 0 <= i < |docs| && docs[i].id != id ==> r[i] == docs[i]
    ensures forall i :: 0 <= i < |docs| && docs[i].id == id && (forall j :: 0 <= j < i ==> docs[j].id != id) ==>
      && SoldQuery(r[i]) && !AvailableQuery(r[i]) && r[i].dateSold == Some(now)
      && r[i].(isSold := docs[i].isSold, isAvailable := docs[i].isAvailable, dateSold := docs[i].dateSold) == docs[i]
    ensures forall i, j :: 0 <= i < j < |docs| && docs[i].id == id ==> r[j] == docs[j]
  {
    match FirstWithId(docs, id)
    case None => docs
    case Some(k) =>
      docs[k := docs[k].(isSold := Some(true), isAvailable := Some(false), dateSold := Some(now))]
  }

  /** A product marked as sold is listed as sold and no longer listed as available. */
  lemma MarkedProductDecodesSold(docs: seq<ProductDoc>, id: ProductId, now: Time, i: nat)
    requires i < |docs| && docs[i].id == id && docs[i].price.Some?
    requires forall j :: 0 <= j < i ==> docs[j].id != id
    ensures DecodeProduct(MarkProductAsSold(docs, id, now)[i]).Success?
    ensures DecodeProduct(MarkProductAsSold(docs, id, now)[i]).value.isSold
    ensures !IsOffered(DecodeProduct(MarkProductAsSold(docs, id, now)[i]).value)
  {
    var r := MarkProductAsSold(docs, id, now);
    assert r[i].price == docs[i].price;
    assert SoldQuery(r[i]);
  }

  /**
   * With unique ids, after `markProductAsSold(id)` no document with that id
   * is matched by the available query, and any there is is matched by the
   * sold query.
   */
  lemma MarkedIdLeavesAvailableListing(docs: seq<ProductDoc>, id: ProductId, now: Time)
    requires UniqueProductIds(docs)
    ensures var r := MarkProductAsSold(docs, id, now);
      forall i :: 0 <= i < |r| && r[i].id == id ==> SoldQuery(r[i]) && !AvailableQuery(r[i])
  {
    var r := MarkProductAsSold(docs, id, now);
    forall i | 0 <= i < |r| && r[i].id == id
      ensures SoldQuery(r[i]) && !AvailableQuery(r[i])
    {
      assert docs[i].id == id;
      assert forall j :: 0 <= j < i ==> docs[j].id != id;
    }
  }

  // ---------------------------------------------------------------------------
  // getAllCategories
  // ---------------------------------------------------------------------------

  /**
   * `a.compareTo(b)`: the difference of the first differing characters, or of
   * the lengths when one string is a prefix of the other.
   */
  function CompareTo(a: string, b: string): int
    decreases |a|
  {
    if |a| == 0 || |b| == 0 then |a| - |b|
    else if a[0] != b[0] then a[0] as int - b[0] as int
    else CompareTo(a[1..], b[1..])
  }

  /** The natural (lexicographic) order of strings that `sorted()` uses. */
  predicate LexLess(a: string, b: string)
    decreases |a|
  {
    if |b| == 0 then false
    else if |a| == 0 then true
    else if a[0] != b[0] then a[0] < b[0]
    else LexLess(a[1..], b[1..])
  }

  /** `LexLess` is exactly `compareTo` returning a negative number. */
  lemma {:induction false} LexLessIsCompareTo(a: string, b: string)
    ensures LexLess(a, b) <==> CompareTo(a, b) < 0
    decreases |a|
  {
    if |a| > 0 && |b| > 0 && a[0] == b[0] {
      LexLessIsCompareTo(a[1..], b[1..]);
    }
  }

  lemma {:induction false} LexIrreflexive(a: string)
    ensures !LexLess(a, a)
    decreases |a|
  {
    if |a| > 0 {
      LexIrreflexive(a[1..]);
    }
  }

  lemma {:induction false} LexTransitive(a: string, b: string, c: string)
    requires LexLess(a, b) && LexLess(b, c)
    ensures LexLess(a, c)
    decreases |a|
  {
    if |a| > 0 && a[0] == b[0] && b[0] == c[0] {
      LexTransitive(a[1..], b[1..], c[1..]);
    }
  }

  lemma {:induction false} LexTotal(a: string, b: string)
    requires a != b
    ensures LexLess(a, b) || LexLess(b, a)
    decreases |a|
  {
    if |a| > 0 && |b| > 0 && a[0] == b[0] {
      assert a == [a[0]] + a[1..] && b == [b[0]] + b[1..];
      LexTotal(a[1..], b[1..]);
    }
  }

  /** Each element strictly below the next: sorted, and hence free of duplicates. */
  predicate StrictlySorted(s: seq<string>) {
    forall i, j :: 0 <= i < j < |s| ==> LexLess(s[i], s[j])
  }

  /** Inserts `x` into its place in a strictly sorted sequence that lacks it. */
  function Insert(x: string, s: seq<string>): (r: seq<string>)
    requires StrictlySorted(s) && x !in s
    ensures StrictlySorted(r)
    ensures multiset(r) == multiset(s) + multiset{x}
  {
    if |s| == 0 then [x]
    else if LexLess(x, s[0]) then
      assert forall j :: 0 < j < |s| ==> LexLess(x, s[j]) by {
        forall j | 0 < j < |s| {
          LexTransitive(x, s[0], s[j]);
        }
      }
      [x] + s
    else
      LexTotal(x, s[0]);
      var rest := Insert(x, s[1..]);
      assert s == [s[0]] + s[1..];
      forall k | 0 <= k < |rest|
        ensures LexLess(s[0], rest[k])
      {
        assert rest[k] in multiset(rest);
        if rest[k] != x {
          assert rest[k] in s[1..];
          var j :| 0 <= j < |s| - 1 && s[1..][j] == rest[k];
          assert s[j + 1] == rest[k];
        }
      }
      [s[0]] + rest
  }

  /** `sorted()` on a list without duplicates. */
  function Sort(s: seq<string>): (r: seq<string>)
    requires forall i, j :: 0 <= i < j < |s| ==> s[i] != s[j]
    ensures StrictlySorted(r)
    ensures multiset(r) == multiset(s)
  {
    if |s| == 0 then []
    else
      var rest := Sort(s[1..]);
      assert s == [s[0]] + s[1..];
      assert s[0] !in multiset(s[1..]);
      Insert(s[0], rest)
  }

  /** The non-null categories of the stored documents. */
  function Categories(docs: seq<ProductDoc>): set<string> {
    set i | 0 <= i < |docs| && docs[i].category.Some? :: docs[i].category.value
  }

  /**
   * `getAllCategories()`: walks the documents keeping each non-null category
   * the first time it appears, then sorts the list.
   */
  method GetAllCategories(docs: seq<ProductDoc>) returns (cats: seq<string>)
    ensures StrictlySorted(cats)
    ensures forall c :: c in cats <==> c in Categories(docs)
  {
    var seen: seq<string> := [];
    var k := 0;
    while k < |docs|
      invariant 0 <= k <= |docs|
      invariant forall i, j :: 0 <= i < j < |seen| ==> seen[i] != seen[j]
      invariant forall c :: c in seen <==> c in Categories(docs[..k])
    {
      var category := docs[k].category;
      if category.Some? && category.value !in seen {
        seen := seen + [category.value];
      }
      assert docs[..k + 1] == docs[..k] + [docs[k]];
      k := k + 1;
    }
    assert docs[..k] == docs;
    cats := Sort(seen);
    assert forall c :: c in cats <==> c in multiset(seen);
  }

  /** In a strictly sorted sequence, the tail holds every element except the head. */
  lemma TailElements(s: seq<string>, c: string)
    requires StrictlySorted(s) && |s| > 0
    ensures c in s[1..] <==> c in s && c != s[0]
  {
    assert s == [s[0]] + s[1..];
    if c in s[1..] {
      var i :| 0 <= i < |s| - 1 && s[1..][i] == c;
      assert LexLess(s[0], s[i + 1]);
      if c == s[0] {
        LexIrreflexive(c);
      }
    }
  }

  /** The head of a strictly sorted sequence is below every other element. */
  lemma HeadIsLeast(s: seq<string>, c: string)
    requires StrictlySorted(s) && c in s && |s| > 0 && c != s[0]
    ensures LexLess(s[0], c)
  {
    var j :| 0 <= j < |s| && s[j] == c;
  }

  /** Two sequences with the same elements are either both empty or both not. */
  lemma SameElementsBothEmpty(a: seq<string>, b: seq<string>)
    requires forall c :: c in a <==> c in b
    ensures |a| == 0 <==> |b| == 0
  {
    if |a| > 0 {
      assert a[0] in b;
    }
    if |b| > 0 {
      assert b[0] in a;
    }
  }

  /** Two strictly sorted listings with the same elements are the same listing. */
  lemma {:induction false} SortedListingIsUnique(a: seq<string>, b: seq<string>)
    requires StrictlySorted(a) && StrictlySorted(b)
    requires forall c :: c in a <==> c in b
    ensures a == b
    decreases |a|
  {
    SameElementsBothEmpty(a, b);
    if |a| > 0 {
      assert a[0] in b && b[0] in a;
      if a[0] != b[0] {
        HeadIsLeast(b, a[0]);
        HeadIsLeast(a, b[0]);
        LexTransitive(a[0], b[0], a[0]);
        LexIrreflexive(a[0]);
      }
      forall c
        ensures c in a[1..] <==> c in b[1..]
      {
        TailElements(a, c);
        TailElements(b, c);
      }
      SortedListingIsUnique(a[1..], b[1..]);
      assert a == [a[0]] + a[1..] && b == [b[0]] + b[1..];
    }
  }
}

=== FILE: decimal.dfy ===
/**
 * Decimal notation of whole numbers, as Java prints a number into a string
 * (`n + " min"`) and as `Integer.parseInt` reads one back.
 */
module Decimal {

  predicate IsDigit(c: char) {
    '0' <= c <= '9'
  }

  function DigitValue(c: char): nat
    requires IsDigit(c)
  {
    c as int - '0' as int
  }

  function DigitChar(d: nat): (c: char)
    requires d < 10
    ensures IsDigit(c) && DigitValue(c) == d
  {
    ('0' as int + d) as char
  }

  predicate AllDigits(s: string) {
    forall i :: 0 <= i < |s| ==> IsDigit(s[i])
  }

  /** Digits without a superfluous leading zero: the way Java prints a number. */
  predicate Canonical(s: string) {
    |s| > 0 && AllDigits(s) && (|s| > 1 ==> s[0] != '0')
  }

  /** The number a string of digits denotes, most significant digit first. */
  function ValueOf(s: string): nat
    requires AllDigits(s)
  {
    if |s| == 0 then 0 else ValueOf(s[..|s| - 1]) * 10 + DigitValue(s[|s| - 1])
  }

  /** The decimal digits of `n`, most significant first. */
  function DigitsOf(n: nat): (s: string)
    ensures Canonical(s)
  {
    if n < 10 then [DigitChar(n)]
    else
      var prefix := DigitsOf(n / 10);
      prefix + [DigitChar(n % 10)]
  }

  /** Reading back what was printed gives the number. */
  lemma {:induction false} ValueOfDigitsOf(n: nat)
    ensures ValueOf(DigitsOf(n)) == n
  {
    if n >= 10 {
      ValueOfDigitsOf(n / 10);
      var s := DigitsOf(n);
      assert s[..|s| - 1] == DigitsOf(n / 10);
    }
  }

  /** A number written with a nonzero leading digit is positive. */
  lemma {:induction false} LeadingNonzeroIsPositive(s: string)
    requires AllDigits(s) && |s| > 0 && s[0] != '0'
    ensures ValueOf(s) > 0
  {
    if |s| > 1 {
      LeadingNonzeroIsPositive(s[..|s| - 1]);
    }
  }

  /** Printing the value of a canonical digit string gives that string back. */
  lemma {:induction false} DigitsOfValueOf(s: string)
    requires Canonical(s)
    ensures DigitsOf(ValueOf(s)) == s
  {
    if |s| > 1 {
      var p := s[..|s| - 1];
      LeadingNonzeroIsPositive(p);
      DigitsOfValueOf(p);
      assert s == p + [s[|s| - 1]];
    }
  }

  /** Different numbers print differently. */
  lemma DigitsOfInjective(m: nat, n: nat)
    requires DigitsOf(m) == DigitsOf(n)
    ensures m == n
  {
    ValueOfDigitsOf(m);
    ValueOfDigitsOf(n);
  }
}

=== FILE: input.dfy ===
/**
 * The console-input rules of utils/InputUtils.java: `String.trim`, the five
 * field validators, `Integer.parseInt` and the multi-selection parser.
 *
 * Each `readX` method loops until its input is acceptable; here one line of
 * input is one call, and `None` stands for "print the message and ask again".
 * Every regular expression is written out as a predicate over characters;
 * `\s` is Java's default class of six ASCII white-space characters and `\d`
 * is `[0-9]`.
 */
module Input {
  import opened Wrappers
  import Decimal
  import Seqs

  // ---------------------------------------------------------------------------
  // Characters
  // ---------------------------------------------------------------------------

  predicate IsLower(c: char) { 'a' <= c <= 'z' }
  predicate IsUpper(c: char) { 'A' <= c <= 'Z' }
  predicate IsLetter(c: char) { IsLower(c) || IsUpper(c) }
  predicate IsDigit(c: char) { Decimal.IsDigit(c) }

  /** Java's `\s`: space, tab, newline, vertical tab, form feed, carriage return. */
  predicate IsSpace(c: char) {
    c == ' ' || c == '\t' || c == '\n' || c == '\U{000B}' || c == '\U{000C}' || c == '\r'
  }

  /** The characters `String.trim` removes: everything up to and including the space. */
  predicate IsBlank(c: char) { c <= ' ' }

  /** The special characters the password pattern asks for: `@$!%*?&`. */
  predicate IsPasswordSpecial(c: char) {
    c == '@' || c == '$' || c == '!' || c == '%' || c == '*' || c == '?' || c == '&'
  }

  // ---------------------------------------------------------------------------
  // String.trim
  // ---------------------------------------------------------------------------

  /** Drops the leading blanks: the result is the suffix from the first non-blank character. */
  function TrimStart(s: string): (r: string)
    ensures |r| <= |s| && r == s[|s| - |r|..]
    ensures forall i :: 0 <= i < |s| - |r| ==> IsBlank(s[i])
    ensures |r| > 0 ==> !IsBlank(r[0])
  {
    if |s| > 0 && IsBlank(s[0]) then TrimStart(s[1..]) else s
  }

  /** Drops the trailing blanks: the result is the prefix up to the last non-blank character. */
  function TrimEnd(s: string): (r: string)
    ensures |r| <= |s| && r == s[..|r|]
    ensures forall i :: |r| <= i < |s| ==> IsBlank(s[i])
    ensures |r| > 0 ==> !IsBlank(r[|r| - 1])
  {
    if |s| > 0 && IsBlank(s[|s| - 1]) then TrimEnd(s[..|s| - 1]) else s
  }

  /** Neither end of `s` is blank (vacuously so for the empty string). */
  predicate Trimmed(s: string) {
    |s| == 0 || (!IsBlank(s[0]) && !IsBlank(s[|s| - 1]))
  }

  /** `s.trim()`. */
  function Trim(s: string): (r: string)
    ensures Trimmed(r)
    ensures |r| == 0 <==> forall i :: 0 <= i < |s| ==> IsBlank(s[i])
  {
    TrimEndsBlank(s);
    TrimEnd(TrimStart(s))
  }

  /** `r` is the infix of `s` that starts at `k`, with only blanks before and after it. */
  predicate BlankFramed(s: string, k: int, r: string) {
    && 0 <= k && k + |r| <= |s|
    && (forall i :: 0 <= i < k ==> IsBlank(s[i]))
    && r == s[k..k + |r|]
    && (forall i :: k + |r| <= i < |s| ==> IsBlank(s[i]))
  }

  /**
   * `trim` returns the infix of `s` between a blank prefix and a blank
   * suffix; with `Trimmed`, the two blank runs are as long as they can be.
   */
  lemma TrimIsInfix(s: string)
    ensures BlankFramed(s, |s| - |TrimStart(s)|, Trim(s))
  {
    TrimKeepsInfix(s);
    assert Trim(s) == TrimEnd(TrimStart(s));
  }

  lemma TrimEndsBlank(s: string)
    ensures Trimmed(TrimEnd(TrimStart(s)))
    ensures |TrimEnd(TrimStart(s))| == 0 <==> forall i :: 0 <= i < |s| ==> IsBlank(s[i])
  {
    var t := TrimStart(s);
    var r := TrimEnd(t);
    assert |r| > 0 ==> r[0] == t[0];
    assert |r| == 0 ==> |t| == 0;
  }

  lemma TrimKeepsInfix(s: string)
    ensures BlankFramed(s, |s| - |TrimStart(s)|, TrimEnd(TrimStart(s)))
  {
    var t := TrimStart(s);
    SliceOfSuffix(s, |s| - |t|, TrimEnd(t));
  }

  /** A prefix of a suffix is an infix, and what the prefix leaves out of the suffix lies at its end. */
  lemma SliceOfSuffix(s: string, k: nat, r: string)
    requires k <= |s| && |r| <= |s| - k && r == s[k..][..|r|]
    requires forall i :: |r| <= i < |s| - k ==> IsBlank(s[k..][i])
    ensures r == s[k..k + |r|]
    ensures forall i :: k + |r| <= i < |s| ==> IsBlank(s[i])
  {
    forall i | k + |r| <= i < |s|
      ensures IsBlank(s[i])
    {
      assert s[i] == s[k..][i - k];
    }
  }

  /** Trimming a string whose ends are not blank changes nothing. */
  lemma TrimOfTrimmed(s: string)
    requires Trimmed(s)
    ensures Trim(s) == s
  {
  }

  /** `trim` is idempotent. */
  lemma TrimIdempotent(s: string)
    ensures Trim(Trim(s)) == Trim(s)
  {
    TrimOfTrimmed(Trim(s));
  }

  // ---------------------------------------------------------------------------
  // Integer.parseInt
  // ---------------------------------------------------------------------------

  const Int32Min: int := -0x8000_0000
  const Int32Max: int := 0x7FFF_FFFF

  predicate InInt32(v: int) { Int32Min <= v <= Int32Max }

  predicate IsSign(c: char) { c == '+' || c == '-' }

  /** An optional sign followed by one or more decimal digits. */
  predicate Numeral(s: string) {
    && |s| > 0
    && (IsSign(s[0]) ==> |s| > 1)
    && forall i :: 0 <= i < |s| ==> IsDigit(s[i]) || (i == 0 && IsSign(s[i]))
  }

  /** The value a numeral denotes, negated after a minus sign. */
  function NumeralValue(s: string): int
    requires Numeral(s)
  {
    if IsSign(s[0]) then
      var n: int := Decimal.ValueOf(s[1..]);
      if s[0] == '-' then -n else n
    else Decimal.ValueOf(s)
  }

  /** `Integer.toString(n)`: a minus sign for a negative number, then its digits. */
  function IntToString(n: int): (s: string)
    ensures Numeral(s)
  {
    if n < 0 then "-" + Decimal.DigitsOf(-n) else Decimal.DigitsOf(n)
  }

  /**
   * `Integer.parseInt(s)`: an optional sign, then one or more digits, whose
   * value must fit in 32 bits; anything else throws NumberFormatException.
   */
  function ParseInt(s: string): (r: Option<int>)
    ensures r.Some? <==> Numeral(s) && InInt32(NumeralValue(s))
    ensures r.Some? ==> r.value == NumeralValue(s)
    ensures Decimal.AllDigits(s) && |s| > 0 && Decimal.ValueOf(s) <= Int32Max ==> r == Some(Decimal.ValueOf(s))
  {
    if |s| == 0 then None
    else
      var negative := s[0] == '-';
      var digits := if s[0] == '-' || s[0] == '+' then s[1..] else s;
      if |digits| == 0 || !Decimal.AllDigits(digits) then None
      else
        var n: int := Decimal.ValueOf(digits);
        var v := if negative then -n else n;
        if InInt32(v) then Some(v) else None
  }

  /** Every number Java prints for a non-negative `int` parses back to itself. */
  lemma ParseIntDigitsOf(n: nat)
    requires n <= Int32Max
    ensures ParseInt(Decimal.DigitsOf(n)) == Some(n)
  {
    Decimal.ValueOfDigitsOf(n);
  }

  /** Every `int` Java prints parses back to itself. */
  lemma ParseIntToString(n: int)
    requires InInt32(n)
    ensures ParseInt(IntToString(n)) == Some(n)
  {
    Decimal.ValueOfDigitsOf(if n < 0 then -n else n);
    if n < 0 {
      assert IntToString(n)[1..] == Decimal.DigitsOf(-n);
    }
  }

  /** `readInt`: the trimmed line as an `int`, or ask again. */
  function ReadInt(line: string): (r: Option<int>)
    ensures r.Some? <==> Numeral(Trim(line)) && InInt32(NumeralValue(Trim(line)))
    ensures r.Some? ==> r.value == NumeralValue(Trim(line)) && InInt32(r.value)
    ensures forall n :: InInt32(n) && Trim(line) == IntToString(n) ==> r == Some(n)
  {
    var r := ParseInt(Trim(line));
    forall n | InInt32(n) && Trim(line) == IntToString(n)
      ensures r == Some(n)
    {
      ParseIntToString(n);
    }
    r
  }

  // ---------------------------------------------------------------------------
  // Field validators
  // ---------------------------------------------------------------------------

  /** `readRequiredString`: any non-empty trimmed line. */
  function ReadRequiredString(line: string): (r: Option<string>)
    ensures r.Some? <==> exists i :: 0 <= i < |line| && !IsBlank(line[i])
    ensures r.Some? ==> r.value == Trim(line) && |r.value| > 0
  {
    var t := Trim(line);
    if |t| == 0 then None else Some(t)
  }

  predicate UsernameChar(c: char) { IsLetter(c) || IsDigit(c) || c == '_' }

  /** `^[a-zA-Z0-9_]{3,20}$`. */
  predicate UsernamePattern(s: string) {
    3 <= |s| <= 20 && forall i :: 0 <= i < |s| ==> UsernameChar(s[i])
  }

  /** `readUsername`: the trimmed line if it is a well-formed username. */
  function ReadUsername(line: string): (r: Option<string>)
    ensures r.Some? <==> UsernamePattern(Trim(line))
    ensures r.Some? ==> r.value == Trim(line)
  {
    var t := Trim(line);
    if |t| == 0 then None
    else if !UsernamePattern(t) then None
    else Some(t)
  }

  /** `(?=.*[a-z])(?=.*[A-Z])(?=.*\d)(?=.*[@$!%*?&])[A-Za-z\d@$!%*?&]{8,}`. */
  predicate PasswordPattern(s: string) {
    && |s| >= 8
    && (exists i :: 0 <= i < |s| && IsLower(s[i]))
    && (exists i :: 0 <= i < |s| && IsUpper(s[i]))
    && (exists i :: 0 <= i < |s| && IsDigit(s[i]))
    && (exists i :: 0 <= i < |s| && IsPasswordSpecial(s[i]))
    && (forall i :: 0 <= i < |s| ==> IsLetter(s[i]) || IsDigit(s[i]) || IsPasswordSpecial(s[i]))
  }

  /**
   * The password pattern decided in one pass over the characters, keeping
   * one flag per required character class.
   */
  method MatchesPassword(s: string) returns (ok: bool)
    ensures ok <==> PasswordPattern(s)
  {
    var lower, upper, digit, special, allowed := false, false, false, false, true;
    var k := 0;
    while k < |s|
      invariant 0 <= k <= |s|
      invariant lower <==> exists i :: 0 <= i < k && IsLower(s[i])
      invariant upper <==> exists i :: 0 <= i < k && IsUpper(s[i])
      invariant digit <==> exists i :: 0 <= i < k && IsDigit(s[i])
      invariant special <==> exists i :: 0 <= i < k && IsPasswordSpecial(s[i])
      invariant allowed <==> forall i :: 0 <= i < k ==> IsLetter(s[i]) || IsDigit(s[i]) || IsPasswordSpecial(s[i])
    {
      var c := s[k];
      lower := lower || IsLower(c);
      upper := upper || IsUpper(c);
      digit := digit || IsDigit(c);
      special := special || IsPasswordSpecial(c);
      allowed := allowed && (IsLetter(c) || IsDigit(c) || IsPasswordSpecial(c));
      k := k + 1;
    }
    ok := |s| >= 8 && lower && upper && digit && special && allowed;
  }

  /**
   * `readPassword`: the trimmed line if it is non-empty, has at least eight
   * characters and matches the password pattern.
   */
  function ReadPassword(line: string): (r: Option<string>)
    ensures r.Some? <==> PasswordPattern(Trim(line))
    ensures r.Some? ==> r.value == Trim(line) && |r.value| >= 8
  {
    var t := Trim(line);
    if |t| == 0 then None
    else if |t| < 8 then None
    else if !PasswordPattern(t) then None
    else Some(t)
  }

  /** `readPasswordConfirmation(original)`: the trimmed line if it equals the original. */
  function ReadPasswordConfirmation(line: string, original: string): (r: Option<string>)
    ensures r.Some? <==> |original| > 0 && Trim(line) == original
    ensures r.Some? ==> r.value == original
  {
    var t := Trim(line);
    if |t| == 0 then None
    else if t != original then None
    else Some(t)
  }

  /**
   * Registration reads the password and then its confirmation: entering the
   * same line twice confirms exactly the passwords the first read accepts.
   */
  lemma ConfirmSameLine(line: string)
    ensures ReadPassword(line).Some? ==>
      ReadPasswordConfirmation(line, ReadPassword(line).value) == ReadPassword(line)
    ensures ReadPasswordConfirmation(line, Trim(line)).Some? <==> |Trim(line)| > 0
  {
  }

  /** `^[a-zA-Z\s]{2,30}$`. */
  predicate NamePattern(s: string) {
    2 <= |s| <= 30 && forall i :: 0 <= i < |s| ==> IsLetter(s[i]) || IsSpace(s[i])
  }

  /** `readName`: the trimmed line if it is 2 to 30 letters and spaces. */
  function ReadName(line: string): (r: Option<string>)
    ensures r.Some? <==> NamePattern(Trim(line))
    ensures r.Some? ==> r.value == Trim(line)
  {
    var t := Trim(line);
    if |t| == 0 then None
    else if !NamePattern(t) then None
    else Some(t)
  }

  /** The characters `replaceAll("[\\s-]", "")` keeps. */
  predicate KeptInPhone(c: char) { !IsSpace(c) && c != '-' }

  /** `s.replaceAll("[\\s-]", "")`: drops every white-space character and dash. */
  function StripSpacesAndDashes(s: string): (r: string)
    ensures forall i :: 0 <= i < |r| ==> KeptInPhone(r[i])
    ensures forall c :: KeptInPhone(c) ==> multiset(r)[c] == multiset(s)[c]
    ensures (forall i :: 0 <= i < |s| ==> KeptInPhone(s[i])) ==> r == s
  {
    Seqs.Filter(s, KeptInPhone)
  }

  /**
   * The characters kept are kept in order: stripping distributes over
   * concatenation and keeps a single character exactly when it is neither
   * white space nor a dash.
   */
  lemma StripKeepsOrder(s: string, t: string, c: char)
    ensures StripSpacesAndDashes(s + t) == StripSpacesAndDashes(s) + StripSpacesAndDashes(t)
    ensures StripSpacesAndDashes([c]) == if KeptInPhone(c) then [c] else []
  {
    Seqs.FilterAppend(s, t, KeptInPhone);
    Seqs.FilterSingle(c, KeptInPhone);
  }

  predicate PhoneDigits(d: string) {
    10 <= |d| <= 15 && forall i :: 0 <= i < |d| ==> IsDigit(d[i])
  }

  /** `^[+]?[0-9]{10,15}$`. */
  predicate PhonePattern(s: string) {
    |s| > 0 && if s[0] == '+' then PhoneDigits(s[1..]) else PhoneDigits(s)
  }

  /**
   * `readPhoneNumber`: the trimmed line with its spaces and dashes removed,
   * if what is left is an optional plus sign and 10 to 15 digits.
   */
  function ReadPhone(line: string): (r: Option<string>)
    ensures r.Some? <==> PhonePattern(StripSpacesAndDashes(Trim(line)))
    ensures r.Some? ==> r.value == StripSpacesAndDashes(Trim(line))
  {
    var phone := Trim(line);
    if |phone| == 0 then None
    else
      var clean := StripSpacesAndDashes(phone);
      if !PhonePattern(clean) then None else Some(clean)
  }

  /** An accepted phone number is digits, except perhaps a leading plus sign. */
  lemma PhoneCharacters(s: string)
    requires PhonePattern(s)
    ensures forall i :: 0 <= i < |s| ==> IsDigit(s[i]) || (i == 0 && s[i] == '+')
    ensures Trimmed(s) && forall i :: 0 <= i < |s| ==> KeptInPhone(s[i])
  {
    if s[0] == '+' {
      forall i | 1 <= i < |s|
        ensures IsDigit(s[i])
      {
        assert s[i] == s[1..][i - 1];
      }
    }
  }

  // ---------------------------------------------------------------------------
  // The e-mail pattern
  // ---------------------------------------------------------------------------

  predicate LocalChar(c: char) {
    IsLetter(c) || IsDigit(c) || c == '.' || c == '_' || c == '%' || c == '+' || c == '-'
  }

  predicate DomainChar(c: char) {
    IsLetter(c) || IsDigit(c) || c == '.' || c == '-'
  }

  /**
   * `s` read as `local@domain.tld` with the `@` at `at` and the last dot at
   * `dot`: a non-empty local part, a non-empty domain, and a top-level domain
   * of at least two letters.
   */
  predicate EmailSplitAt(s: string, at: int, dot: int) {
    && 0 < at && at + 1 < dot && dot + 3 <= |s|
    && s[at] == '@' && s[dot] == '.'
    && (forall i :: 0 <= i < at ==> LocalChar(s[i]))
    && (forall i :: at < i < dot ==> DomainChar(s[i]))
    && (forall i :: dot < i < |s| ==> IsLetter(s[i]))
  }

  /** `^[a-zA-Z0-9._%+-]+@[a-zA-Z0-9.-]+\.[a-zA-Z]{2,}$`: some way of splitting `s` fits. */
  ghost predicate EmailPattern(s: string) {
    exists at, dot :: EmailSplitAt(s, at, dot)
  }

  /** The position of the first `c` in `s`, if any. */
  function FirstIndex(s: string, c: char): (r: Option<nat>)
    ensures r.None? <==> c !in s
    ensures r.Some? ==> r.value < |s| && s[r.value] == c && forall i :: 0 <= i < r.value ==> s[i] != c
  {
    if |s| == 0 then None
    else if s[0] == c then Some(0)
    else
      match FirstIndex(s[1..], c)
      case None => None
      case Some(k) => Some(k + 1)
  }

  /** The position of the last `c` in `s`, if any. */
  function LastIndex(s: string, c: char): (r: Option<nat>)
    ensures r.None? <==> c !in s
    ensures r.Some? ==> r.value < |s| && s[r.value] == c && forall i :: r.value < i < |s| ==> s[i] != c
  {
    if |s| == 0 then None
    else if s[|s| - 1] == c then Some(|s| - 1)
    else
      var r := LastIndex(s[..|s| - 1], c);
      assert c in s[..|s| - 1] ==> c in s;
      assert c in s ==> c in s[..|s| - 1] by {
        if c in s {
          var i :| 0 <= i < |s| && s[i] == c;
          assert s[..|s| - 1][i] == c;
        }
      }
      r
  }

  /** The e-mail check done without search: split at the first `@` and the last dot. */
  predicate EmailCheck(s: string) {
    var at := FirstIndex(s, '@');
    var dot := LastIndex(s, '.');
    at.Some? && dot.Some? && EmailSplitAt(s, at.value, dot.value)
  }

  /** The direct check accepts exactly the strings the pattern matches. */
  lemma EmailCheckMatchesPattern(s: string)
    ensures EmailCheck(s) <==> EmailPattern(s)
  {
    if EmailPattern(s) {
      var at, dot :| EmailSplitAt(s, at, dot);
      var first := FirstIndex(s, '@');
      var last := LastIndex(s, '.');
      assert first == Some(at) by {
        assert !LocalChar('@');
      }
      assert last == Some(dot);
    }
  }

  /** `readEmail`: the trimmed line if it matches the e-mail pattern. */
  function ReadEmail(line: string): (r: Option<string>)
    ensures r.Some? <==> EmailPattern(Trim(line))
    ensures r.Some? ==> r.value == Trim(line)
  {
    var t := Trim(line);
    EmailCheckMatchesPattern(t);
    if |t| == 0 then None
    else if !EmailCheck(t) then None
    else Some(t)
  }

  /** A string the e-mail pattern accepts holds exactly one `@`. */
  lemma EmailHasOneAt(s: string)
    requires EmailPattern(s)
    ensures multiset(s)['@'] == 1
  {
    var at, dot :| EmailSplitAt(s, at, dot);
    var local, domain := s[..at], s[at + 1..];
    assert s == local + [s[at]] + domain;
    assert '@' !in local by {
      forall i | 0 <= i < |local|
        ensures local[i] != '@'
      {
        assert LocalChar(s[i]);
      }
    }
    assert '@' !in domain by {
      forall i | 0 <= i < |domain|
        ensures domain[i] != '@'
      {
        assert domain[i] == s[at + 1 + i];
        if at + 1 + i < dot {
          assert DomainChar(s[at + 1 + i]);
        } else if at + 1 + i > dot {
          assert IsLetter(s[at + 1 + i]);
        }
      }
    }
  }

  /** Re-reading an accepted value accepts it unchanged: the validators are idempotent. */
  lemma ValidatorsIdempotent(line: string)
    ensures ReadUsername(line).Some? ==> ReadUsername(ReadUsername(line).value) == ReadUsername(line)
    ensures ReadPassword(line).Some? ==> ReadPassword(ReadPassword(line).value) == ReadPassword(line)
    ensures ReadName(line).Some? ==> ReadName(ReadName(line).value) == ReadName(line)
    ensures ReadEmail(line).Some? ==> ReadEmail(ReadEmail(line).value) == ReadEmail(line)
  {
    TrimIdempotent(line);
  }

  /** A cleaned phone number is accepted as it stands. */
  lemma ReadPhoneIdempotent(line: string)
    ensures ReadPhone(line).Some? ==> ReadPhone(ReadPhone(line).value) == ReadPhone(line)
  {
    if ReadPhone(line).Some? {
      var clean := ReadPhone(line).value;
      PhoneCharacters(clean);
      TrimOfTrimmed(clean);
    }
  }

  // ---------------------------------------------------------------------------
  // readMultipleProductSelections
  // ---------------------------------------------------------------------------

  /** The separators of `split("[,\\s]+")`. */
  predicate IsSeparator(c: char) { c == ',' || IsSpace(c) }

  predicate NoSeparator(t: string) {
    forall i :: 0 <= i < |t| ==> !IsSeparator(t[i])
  }

  /**
   * `split("[,\\s]+")` with its empty parts dropped: the maximal runs of
   * non-separator characters, in order. `current` is the run being read.
   * (Java keeps one empty leading part when the input starts with a comma;
   * the parser skips empty parts, so dropping it here changes nothing.)
   */
  function Runs(s: string, current: string): (r: seq<string>)
    requires NoSeparator(current)
    ensures forall i :: 0 <= i < |r| ==> |r[i]| > 0 && NoSeparator(r[i])
    decreases |s|
  {
    if |s| == 0 then
      if |current| > 0 then [current] else []
    else if IsSeparator(s[0]) then
      (if |current| > 0 then [current] else []) + Runs(s[1..], "")
    else
      Runs(s[1..], current + [s[0]])
  }

  function Tokens(s: string): (r: seq<string>)
    ensures forall i :: 0 <= i < |r| ==> |r[i]| > 0 && NoSeparator(r[i])
  {
    Runs(s, "")
  }

  /** A separator ends the run being read; what follows is split on its own. */
  lemma {:induction false} RunsSplit(t: string, c: char, u: string, current: string)
    requires NoSeparator(current) && IsSeparator(c)
    ensures Runs(t + [c] + u, current) == Runs(t, current) + Runs(u, "")
    decreases |t|
  {
    var s := t + [c] + u;
    if |t| == 0 {
      assert s == [c] + u && s[0] == c && s[1..] == u;
    } else {
      assert s[0] == t[0] && s[1..] == t[1..] + [c] + u;
      if IsSeparator(t[0]) {
        RunsSplit(t[1..], c, u, "");
      } else {
        RunsSplit(t[1..], c, u, current + [t[0]]);
      }
    }
  }

  /** `split("[,\\s]+")` cuts the input at every separator, keeping the pieces in order. */
  lemma TokensSplitAtSeparator(t: string, c: char, u: string)
    requires IsSeparator(c)
    ensures Tokens(t + [c] + u) == Tokens(t) + Tokens(u)
  {
    RunsSplit(t, c, u, "");
  }

  /** Input without separators is one piece, or none when it is empty. */
  lemma TokensOfRun(t: string)
    requires NoSeparator(t)
    ensures Tokens(t) == if |t| == 0 then [] else [t]
  {
    RunsAppend(t, "", "");
    assert t + "" == t && "" + t == t;
  }

  /** All different: what `selections.contains` guards. */
  predicate Distinct(xs: seq<int>) {
    forall i, j :: 0 <= i < j < |xs| ==> xs[i] != xs[j]
  }

  predicate AllInRange(xs: seq<int>, max: int) {
    forall i :: 0 <= i < |xs| ==> 1 <= xs[i] <= max
  }

  /** The trimmed parts that are not empty, in order. */
  function Entries(parts: seq<string>): seq<string> {
    if |parts| == 0 then []
    else
      var t := Trim(parts[0]);
      (if |t| == 0 then [] else [t]) + Entries(parts[1..])
  }

  /** Every entry parsed as an `int`, or nothing if any entry is not a number. */
  function ParseAll(entries: seq<string>): Option<seq<int>> {
    if |entries| == 0 then Some([])
    else
      match (ParseInt(entries[0]), ParseAll(entries[1..]))
      case (Some(v), Some(vs)) => Some([v] + vs)
      case (None, _) => None
      case (_, None) => None
  }

  /** `ParseAll` succeeds exactly when every entry is a number, and keeps their order. */
  lemma {:induction false} ParseAllMeaning(entries: seq<string>)
    ensures ParseAll(entries).Some? <==> forall i :: 0 <= i < |entries| ==> ParseInt(entries[i]).Some?
    ensures ParseAll(entries).Some? ==> |ParseAll(entries).value| == |entries|
    ensures ParseAll(entries).Some? ==>
      forall i :: 0 <= i < |entries| ==> ParseInt(entries[i]) == Some(ParseAll(entries).value[i])
  {
    if |entries| > 0 {
      ParseAllMeaning(entries[1..]);
      assert forall i :: 1 <= i < |entries| ==> entries[i] == entries[1..][i - 1];
    }
  }

  /** What the parse of `parts` should produce, stated without the loop. */
  function Expected(parts: seq<string>, max: int): Option<seq<int>> {
    var vs := ParseAll(Entries(parts));
    if vs.Some? && |vs.value| > 0 && AllInRange(vs.value, max) && Distinct(vs.value) then vs else None
  }

  /** The selection that results from appending the parsed numbers `parsed` to `selections`. */
  function Combine(selections: seq<int>, parsed: Option<seq<int>>, max: int): Option<seq<int>> {
    if parsed.Some? && |selections + parsed.value| > 0 && AllInRange(selections + parsed.value, max)
       && Distinct(selections + parsed.value)
    then Some(selections + parsed.value) else None
  }

  /** What the parse of `parts` should produce once `selections` are already taken. */
  function Outcome(parts: seq<string>, max: int, selections: seq<int>): Option<seq<int>> {
    Combine(selections, ParseAll(Entries(parts)), max)
  }

  /** `v` in front of the parsed numbers, if they all parsed. */
  function Prepend(v: int, parsed: Option<seq<int>>): Option<seq<int>> {
    if parsed.Some? then Some([v] + parsed.value) else None
  }

  /** The parts in front of a number parse as that number in front of the rest. */
  lemma EntriesStep(parts: seq<string>, v: int)
    requires |parts| > 0 && |Trim(parts[0])| > 0 && ParseInt(Trim(parts[0])) == Some(v)
    ensures ParseAll(Entries(parts)) == Prepend(v, ParseAll(Entries(parts[1..])))
  {
    var t := Trim(parts[0]);
    var rest := Entries(parts[1..]);
    assert Entries(parts) == [t] + rest;
    assert ([t] + rest)[0] == t && ([t] + rest)[1..] == rest;
  }

  /** A part that is not a number spoils the whole parse. */
  lemma EntriesStepFails(parts: seq<string>)
    ensures |parts| > 0 && |Trim(parts[0])| > 0 && ParseInt(Trim(parts[0])).None? ==>
      ParseAll(Entries(parts)).None?
  {
    if |parts| > 0 && |Trim(parts[0])| > 0 {
      var t := Trim(parts[0]);
      var rest := Entries(parts[1..]);
      assert Entries(parts) == [t] + rest;
      assert ([t] + rest)[0] == t;
    }
  }

  /** Moving an accepted number from the parsed list to the selections changes nothing. */
  lemma CombineStep(selections: seq<int>, v: int, parsed: Option<seq<int>>, max: int)
    ensures 1 <= v <= max && v !in selections ==>
      Combine(selections, Prepend(v, parsed), max) == Combine(selections + [v], parsed, max)
    ensures !(1 <= v <= max) || v in selections ==> Combine(selections, Prepend(v, parsed), max).None?
  {
    if parsed.Some? {
      var all := selections + ([v] + parsed.value);
      assert all == selections + [v] + parsed.value;
      assert all[|selections|] == v;
      if v in selections {
        var i :| 0 <= i < |selections| && selections[i] == v;
        assert all[i] == v;
      }
    }
  }

  /**
   * The loop of `readMultipleProductSelections` over the parts after
   * `selections` has been built: an empty part is skipped, a part that is not
   * a number, is out of range or repeats an earlier one abandons the input,
   * and an empty selection at the end means asking again.
   */
  function Select(parts: seq<string>, max: int, selections: seq<int>): (r: Option<seq<int>>)
    ensures r == Outcome(parts, max, selections)
  {
    if |parts| == 0 then
      assert selections + [] == selections;
      if |selections| > 0 && AllInRange(selections, max) && Distinct(selections) then Some(selections) else None
    else
      var t := Trim(parts[0]);
      if |t| == 0 then
        assert Entries(parts) == Entries(parts[1..]);
        Select(parts[1..], max, selections)
      else
        match ParseInt(t)
        case None =>
          EntriesStepFails(parts);
          None
        case Some(v) =>
          EntriesStep(parts, v);
          CombineStep(selections, v, ParseAll(Entries(parts[1..])), max);
          if v < 1 || v > max then None
          else if v in selections then None
          else Select(parts[1..], max, selections + [v])
  }

  /**
   * `readMultipleProductSelections(maxProducts)` on one input line: the
   * product numbers in the order typed, when every one is a number in
   * `1..maxProducts` and none repeats.
   */
  function ReadMultipleSelections(line: string, max: int): (r: Option<seq<int>>)
    ensures r.Some? ==> |r.value| > 0 && AllInRange(r.value, max) && Distinct(r.value)
    ensures r == Expected(Tokens(Trim(line)), max)
  {
    var input := Trim(line);
    if |input| == 0 then
      assert Tokens(input) == [];
      None
    else
      var r := Select(Tokens(input), max, []);
      var vs := ParseAll(Entries(Tokens(input)));
      assert vs.Some? ==> [] + vs.value == vs.value;
      r
  }

  // ---------------------------------------------------------------------------
  // Printing a selection and reading it back
  // ---------------------------------------------------------------------------

  predicate NonNegative(xs: seq<int>) {
    forall i :: 0 <= i < |xs| ==> xs[i] >= 0
  }

  /** The numbers as typed by a user who separates them with commas: `"1,3,4"`. */
  function Join(xs: seq<int>): string
    requires NonNegative(xs)
  {
    if |xs| == 0 then ""
    else if |xs| == 1 then Decimal.DigitsOf(xs[0])
    else Decimal.DigitsOf(xs[0]) + "," + Join(xs[1..])
  }

  /** The decimal numerals of the numbers. */
  function Numerals(xs: seq<int>): seq<string>
    requires NonNegative(xs)
  {
    if |xs| == 0 then [] else [Decimal.DigitsOf(xs[0])] + Numerals(xs[1..])
  }

  lemma DigitsHaveNoSeparator(n: nat)
    ensures NoSeparator(Decimal.DigitsOf(n)) && Trimmed(Decimal.DigitsOf(n))
  {
  }

  /** A separator-free prefix is added to the run being read. */
  lemma {:induction false} RunsAppend(t: string, s: string, current: string)
    requires NoSeparator(t) && NoSeparator(current)
    ensures NoSeparator(current + t)
    ensures Runs(t + s, current) == Runs(s, current + t)
    decreases |t|
  {
    if |t| == 0 {
      assert t + s == s && current + t == current;
    } else {
      assert (t + s)[0] == t[0] && (t + s)[1..] == t[1..] + s;
      RunsAppend(t[1..], s, current + [t[0]]);
      assert current + [t[0]] + t[1..] == current + t;
    }
  }

  /** Splitting a comma-joined list gives back its numerals. */
  lemma {:induction false} RunsOfJoin(xs: seq<int>)
    requires |xs| > 0 && NonNegative(xs)
    ensures Runs(Join(xs), "") == Numerals(xs)
    decreases |xs|
  {
    var d := Decimal.DigitsOf(xs[0]);
    DigitsHaveNoSeparator(xs[0]);
    assert "" + d == d;
    if |xs| == 1 {
      RunsAppend(d, "", "");
      assert d + "" == d;
      assert Numerals(xs[1..]) == [];
    } else {
      var rest := "," + Join(xs[1..]);
      assert Join(xs) == d + rest;
      RunsAppend(d, rest, "");
      assert rest[0] == ',' && rest[1..] == Join(xs[1..]);
      RunsOfJoin(xs[1..]);
    }
  }

  /** A joined list starts and ends with a digit. */
  lemma {:induction false} JoinEnds(xs: seq<int>)
    requires |xs| > 0 && NonNegative(xs)
    ensures |Join(xs)| > 0 && IsDigit(Join(xs)[0]) && IsDigit(Join(xs)[|Join(xs)| - 1])
    decreases |xs|
  {
    if |xs| > 1 {
      JoinEnds(xs[1..]);
      var d := Decimal.DigitsOf(xs[0]);
      assert Join(xs) == d + ("," + Join(xs[1..]));
    }
  }

  lemma {:induction false} EntriesOfNumerals(xs: seq<int>)
    requires NonNegative(xs)
    ensures Entries(Numerals(xs)) == Numerals(xs)
    decreases |xs|
  {
    if |xs| > 0 {
      var ns := Numerals(xs);
      DigitsHaveNoSeparator(xs[0]);
      TrimOfTrimmed(ns[0]);
      assert ns[1..] == Numerals(xs[1..]);
      EntriesOfNumerals(xs[1..]);
    }
  }

  lemma {:induction false} ParseAllNumerals(xs: seq<int>)
    requires NonNegative(xs) && forall i :: 0 <= i < |xs| ==> xs[i] <= Int32Max
    ensures ParseAll(Numerals(xs)) == Some(xs)
    decreases |xs|
  {
    if |xs| > 0 {
      var ns := Numerals(xs);
      ParseIntDigitsOf(xs[0]);
      assert ns[1..] == Numerals(xs[1..]);
      ParseAllNumerals(xs[1..]);
      assert xs == [xs[0]] + xs[1..];
    }
  }

  /**
   * Every selection the parser can return, typed back separated by commas,
   * is read as that same selection.
   */
  lemma SelectionRoundTrip(xs: seq<int>, max: int)
    requires max <= Int32Max
    requires |xs| > 0 && AllInRange(xs, max) && Distinct(xs)
    ensures ReadMultipleSelections(Join(xs), max) == Some(xs)
  {
    var line := Join(xs);
    JoinEnds(xs);
    TrimOfTrimmed(line);
    RunsOfJoin(xs);
    EntriesOfNumerals(xs);
    ParseAllNumerals(xs);
  }
}

=== FILE: seqs.dfy ===
/** Order-preserving filtering (`stream().filter(...).collect(...)`) and one-based menu choices. */
module Seqs {
  import opened Wrappers

  /** Keeps, in their original order, the elements of `s` that satisfy `p`. */
  function Filter<T(!new)>(s: seq<T>, p: T -> bool): (r: seq<T>)
    ensures |r| <= |s|
    ensures forall i :: 0 <= i < |r| ==> p(r[i])
    ensures forall x :: x in s && p(x) ==> x in r
    ensures forall x :: multiset(r)[x] == if p(x) then multiset(s)[x] else 0
    ensures (forall i :: 0 <= i < |s| ==> p(s[i])) ==> r == s
  {
    if |s| == 0 then []
    else
      var rest := Filter(s[1..], p);
      assert s == [s[0]] + s[1..];
      if p(s[0]) then [s[0]] + rest else rest
  }

  /** Filtering distributes over concatenation, so the kept elements keep their order. */
  lemma {:induction false} FilterAppend<T(!new)>(s: seq<T>, t: seq<T>, p: T -> bool)
    ensures Filter(s + t, p) == Filter(s, p) + Filter(t, p)
    decreases |s|
  {
    if |s| == 0 {
      assert s + t == t;
    } else {
      var st := s + t;
      assert st[0] == s[0] && st[1..] == s[1..] + t;
      FilterAppend(s[1..], t, p);
      var a, b := Filter(s[1..], p), Filter(t, p);
      if p(s[0]) {
        calc {
          Filter(st, p);
          [s[0]] + Filter(s[1..] + t, p);
          [s[0]] + (a + b);
          ([s[0]] + a) + b;
        }
      } else {
        assert Filter(st, p) == Filter(s[1..] + t, p);
      }
    }
  }

  /** A single element is kept exactly when it satisfies `p`. */
  lemma FilterSingle<T(!new)>(x: T, p: T -> bool)
    ensures Filter([x], p) == if p(x) then [x] else []
  {
    assert [x][1..] == [];
  }

  /** A prefix of `s` is its head followed by a prefix of its tail. */
  lemma PrefixOfTail<T>(s: seq<T>, j: nat)
    requires j < |s| - 1
    ensures s[..j + 1] == [s[0]] + s[1..][..j]
  {
  }

  /** The kept elements in front of position `j + 1` of `s`, counted via its tail. */
  lemma CountBeforeShifted<T(!new)>(s: seq<T>, p: T -> bool, j: nat)
    requires j < |s| - 1
    ensures |Filter(s[..j + 1], p)| == (if p(s[0]) then 1 else 0) + |Filter(s[1..][..j], p)|
  {
    PrefixOfTail(s, j);
    FilterAppend([s[0]], s[1..][..j], p);
    FilterSingle(s[0], p);
  }

  /**
   * The `k`-th kept element is the element at some position `i` of `s`
   * preceded by exactly `k` kept elements.
   */
  lemma {:induction false} FilterPosition<T(!new)>(s: seq<T>, p: T -> bool, k: nat) returns (i: nat)
    requires k < |Filter(s, p)|
    ensures i < |s| && s[i] == Filter(s, p)[k] && p(s[i]) && |Filter(s[..i], p)| == k
    decreases |s|
  {
    var rest := Filter(s[1..], p);
    assert Filter(s, p) == if p(s[0]) then [s[0]] + rest else rest;
    if p(s[0]) && k == 0 {
      assert s[..0] == [];
      i := 0;
    } else {
      var k': nat := if p(s[0]) then k - 1 else k;
      assert Filter(s, p)[k] == rest[k'];
      var j := FilterPosition(s[1..], p, k');
      CountBeforeShifted(s, p, j);
      i := j + 1;
    }
  }

  /**
   * A one-based menu choice: the `choice`-th element when `1 <= choice <= |s|`,
   * and nothing ("Invalid selection.") otherwise.
   */
  function Pick<T>(s: seq<T>, choice: int): (r: Option<T>)
    ensures r.Some? <==> 1 <= choice <= |s|
    ensures r.Some? ==> r.value == s[choice - 1] && r.value in s
  {
    if 1 <= choice <= |s| then Some(s[choice - 1]) else None
  }
}

=== FILE: users.dfy ===
/**
 * The user registry of services/impl/UserServiceImpl.java: registration with
 * unique usernames and e-mails, the authentication decision order, and the
 * role-dispatching document decoder.
 *
 * The `users` collection is a sequence of documents in insertion order, so
 * `find(...).first()` is the first match. BCrypt is an opaque `Hasher`: a
 * salted hash and a verifier that accepts every password against its own hash.
 */
module Users {
  import opened Wrappers
  import opened Auctions

  datatype Role = AdminRole | SellerRole | BuyerRole

  function RoleName(r: Role): string {
    match r
    case AdminRole => "ADMIN"
    case SellerRole => "SELLER"
    case BuyerRole => "BUYER"
  }

  /** The `switch (role)` of `documentToUser`: any other value, or none, is rejected. */
  function ParseRole(name: Option<string>): (r: Option<Role>)
    ensures r.Some? <==> name in {Some("ADMIN"), Some("SELLER"), Some("BUYER")}
    ensures r.Some? ==> name == Some(RoleName(r.value))
  {
    if name == Some("ADMIN") then Some(AdminRole)
    else if name == Some("SELLER") then Some(SellerRole)
    else if name == Some("BUYER") then Some(BuyerRole)
    else None
  }

  /** The per-role data of the Admin, Seller and Buyer subclasses. */
  datatype Profile =
    | AdminProfile
    | SellerProfile(productIds: seq<ProductId>, sellerTransactionIds: seq<nat>, totalEarnings: Money,
                    totalProductsSold: int, rating: int, totalRatings: int)
    | BuyerProfile(purchaseIds: seq<ProductId>, buyerTransactionIds: seq<nat>, bidIds: seq<BidId>,
                   totalSpent: Money, totalPurchases: int)

  function RoleOf(p: Profile): Role {
    match p
    case AdminProfile => AdminRole
    case SellerProfile(_, _, _, _, _, _) => SellerRole
    case BuyerProfile(_, _, _, _, _) => BuyerRole
  }

  /** The profile a subclass constructor builds: empty lists and zero counters. */
  function FreshProfile(r: Role): (p: Profile)
    ensures RoleOf(p) == r
  {
    match r
    case AdminRole => AdminProfile
    case SellerRole => SellerProfile([], [], 0, 0, 0, 0)
    case BuyerRole => BuyerProfile([], [], [], 0, 0)
  }

  datatype User = User(
    id: UserId,
    username: string,
    email: string,
    password: string,
    firstName: string,
    lastName: string,
    phoneNumber: string,
    isActive: bool,
    profile: Profile)

  /** A stored user document; a `None` field is absent. */
  datatype UserDoc = UserDoc(
    id: UserId,
    username: string,
    email: string,
    password: string,
    role: Option<string>,
    firstName: string,
    lastName: string,
    phoneNumber: string,
    isActive: Option<bool>,
    productIds: Option<seq<ProductId>>,
    transactionIds: Option<seq<nat>>,
    purchaseIds: Option<seq<ProductId>>,
    bidIds: Option<seq<BidId>>,
    totalEarnings: Option<Money>,
    totalProductsSold: Option<int>,
    rating: Option<int>,
    totalRatings: Option<int>,
    totalSpent: Option<Money>,
    totalPurchases: Option<int>)

  datatype DecodeError = UnknownRole(role: Option<string>)

  function OptionOr<T>(o: Option<T>, default: T): T {
    if o.Some? then o.value else default
  }

  /**
   * `documentToUser`: the role picks the subclass; an absent `isActive` reads
   * as true, absent lists as empty and absent counters as zero.
   */
  function DecodeUser(d: UserDoc): (r: Result<User, DecodeError>)
    ensures r.Failure? <==> ParseRole(d.role).None?
    ensures r.Success? ==> RoleOf(r.value.profile) == ParseRole(d.role).value
    ensures r.Success? ==> r.value.isActive == (d.isActive != Some(false))
    ensures r.Success? && r.value.profile.SellerProfile? ==>
      && (d.totalEarnings.None? ==> r.value.profile.totalEarnings == 0)
      && (d.totalProductsSold.None? ==> r.value.profile.totalProductsSold == 0)
      && (d.rating.None? ==> r.value.profile.rating == 0)
      && (d.totalRatings.None? ==> r.value.profile.totalRatings == 0)
    ensures r.Success? && r.value.profile.BuyerProfile? ==>
      && (d.totalSpent.None? ==> r.value.profile.totalSpent == 0)
      && (d.totalPurchases.None? ==> r.value.profile.totalPurchases == 0)
  {
    var role := ParseRole(d.role);
    if role.None? then Failure(UnknownRole(d.role))
    else
      var profile := match role.value
        case AdminRole => AdminProfile
        case SellerRole => SellerProfile(OptionOr(d.productIds, []), OptionOr(d.transactionIds, []),
                                         OptionOr(d.totalEarnings, 0), OptionOr(d.totalProductsSold, 0),
                                         OptionOr(d.rating, 0), OptionOr(d.totalRatings, 0))
        case BuyerRole => BuyerProfile(OptionOr(d.purchaseIds, []), OptionOr(d.transactionIds, []),
                                       OptionOr(d.bidIds, []), OptionOr(d.totalSpent, 0),
                                       OptionOr(d.totalPurchases, 0));
      Success(User(d.id, d.username, d.email, d.password, d.firstName, d.lastName, d.phoneNumber,
                   OptionOr(d.isActive, true), profile))
  }

  /** `userToDocument`: the common fields plus the fields of the user's own role. */
  function EncodeUser(u: User): UserDoc {
    var base := UserDoc(u.id, u.username, u.email, u.password, Some(RoleName(RoleOf(u.profile))),
                        u.firstName, u.lastName, u.phoneNumber, Some(u.isActive),
                        None, None, None, None, None, None, None, None, None, None);
    match u.profile
    case AdminProfile => base
    case SellerProfile(ps, ts, earned, sold, rating, ratings) =>
      base.(productIds := Some(ps), transactionIds := Some(ts), totalEarnings := Some(earned),
            totalProductsSold := Some(sold), rating := Some(rating), totalRatings := Some(ratings))
    case BuyerProfile(ps, ts, bs, spent, purchases) =>
      base.(purchaseIds := Some(ps), transactionIds := Some(ts), bidIds := Some(bs),
            totalSpent := Some(spent), totalPurchases := Some(purchases))
  }

  /** Storing a user and reading the document back gives the same user. */
  lemma DecodeEncodeUser(u: User)
    ensures DecodeUser(EncodeUser(u)) == Success(u)
  {
  }

  // ---------------------------------------------------------------------------
  // Registration and authentication
  // ---------------------------------------------------------------------------

  /** BCrypt as a pair of functions: `hash(password, salt)` and `verify(password, hash)`. */
  datatype Hasher = Hasher(hash: (string, nat) -> string, verify: (string, string) -> bool)

  /** Every password verifies against any salted hash of itself. */
  ghost predicate Sound(h: Hasher) {
    forall p, salt :: h.verify(p, h.hash(p, salt))
  }

  predicate UsernameTaken(users: seq<UserDoc>, name: string) {
    exists i :: 0 <= i < |users| && users[i].username == name
  }

  predicate EmailTaken(users: seq<UserDoc>, email: string) {
    exists i :: 0 <= i < |users| && users[i].email == email
  }

  predicate IdTaken(users: seq<UserDoc>, id: UserId) {
    exists i :: 0 <= i < |users| && users[i].id == id
  }

  /** No two stored accounts share a username or an e-mail address. */
  predicate UniqueAccounts(users: seq<UserDoc>) {
    forall i, j :: 0 <= i < j < |users| ==>
      users[i].username != users[j].username && users[i].email != users[j].email
  }

  datatype RegisterError = UsernameExists | EmailExists | DuplicateId

  /**
   * `registerUser(user)`: refuses a taken username, then a taken e-mail, then
   * (on insert) a taken id; otherwise stores the user with the password
   * replaced by its salted hash.
   */
  function RegisterUser(users: seq<UserDoc>, u: User, h: Hasher, salt: nat): (r: Result<seq<UserDoc>, RegisterError>)
    ensures UsernameTaken(users, u.username) ==> r == Failure(UsernameExists)
    ensures !UsernameTaken(users, u.username) && EmailTaken(users, u.email) ==> r == Failure(EmailExists)
    ensures r.Success? <==>
      !UsernameTaken(users, u.username) && !EmailTaken(users, u.email) && !IdTaken(users, u.id)
    ensures r.Success? ==>
      && |r.value| == |users| + 1
      && r.value[..|users|] == users
      && DecodeUser(r.value[|users|]) == Success(u.(password := h.hash(u.password, salt)))
  {
    if UsernameTaken(users, u.username) then Failure(UsernameExists)
    else if EmailTaken(users, u.email) then Failure(EmailExists)
    else if IdTaken(users, u.id) then Failure(DuplicateId)
    else
      var stored := u.(password := h.hash(u.password, salt));
      DecodeEncodeUser(stored);
      Success(users + [EncodeUser(stored)])
  }

  /** A successful registration keeps usernames and e-mails unique. */
  lemma RegisterKeepsAccountsUnique(users: seq<UserDoc>, u: User, h: Hasher, salt: nat)
    requires UniqueAccounts(users)
    requires RegisterUser(users, u, h, salt).Success?
    ensures UniqueAccounts(RegisterUser(users, u, h, salt).value)
  {
    var users' := RegisterUser(users, u, h, salt).value;
    forall i, j | 0 <= i < j < |users'|
      ensures users'[i].username != users'[j].username && users'[i].email != users'[j].email
    {
      if j == |users| {
        assert users'[i] == users[i];
        assert users'[j].username == u.username && users'[j].email == u.email;
      } else {
        assert users'[i] == users[i] && users'[j] == users[j];
      }
    }
  }

  /** The index of the first document with this username: `find(eq("username", name)).first()`. */
  function FindByUsername(users: seq<UserDoc>, name: string): (r: Option<nat>)
    ensures r.None? <==> !UsernameTaken(users, name)
    ensures r.Some? ==> r.value < |users| && users[r.value].username == name
    ensures r.Some? ==> forall i :: 0 <= i < r.value ==> users[i].username != name
  {
    if |users| == 0 then None
    else if users[0].username == name then Some(0)
    else
      var rest := FindByUsername(users[1..], name);
      if rest.None? then
        assert forall i :: 1 <= i < |users| ==> users[i] == users[1..][i - 1];
        None
      else
        assert forall i :: 1 <= i <= rest.value ==> users[i] == users[1..][i - 1];
        Some(rest.value + 1)
  }

  datatype AuthError = InvalidCredentials | AccountDeactivated | AuthenticationFailed(cause: DecodeError)

  /**
   * `authenticateUser(username, password)`: an unknown name and a wrong
   * password give the same error; the deactivation check comes only after
   * the password matched; an undecodable document fails last.
   */
  function Authenticate(users: seq<UserDoc>, name: string, password: string, h: Hasher): (r: Result<User, AuthError>)
    ensures !UsernameTaken(users, name) ==> r == Failure(InvalidCredentials)
    ensures r.Success? || r == Failure(AccountDeactivated) ==>
      var i := FindByUsername(users, name);
      i.Some? && h.verify(password, users[i.value].password)
    ensures r == Failure(AccountDeactivated) ==> users[FindByUsername(users, name).value].isActive == Some(false)
    ensures r.Success? ==>
      var d := users[FindByUsername(users, name).value];
      && DecodeUser(d) == Success(r.value)
      && r.value.username == name
      && r.value.isActive
    ensures UsernameTaken(users, name) ==>
      var d := users[FindByUsername(users, name).value];
      && (h.verify(password, d.password) && d.isActive == Some(false) ==> r == Failure(AccountDeactivated))
      && (h.verify(password, d.password) && d.isActive != Some(false) ==> (r.Success? <==> DecodeUser(d).Success?))
      && (h.verify(password, d.password) && d.isActive != Some(false) && DecodeUser(d).Failure? ==>
            r == Failure(AuthenticationFailed(DecodeUser(d).error)))
  {
    var found := FindByUsername(users, name);
    if found.None? then Failure(InvalidCredentials)
    else
      var d := users[found.value];
      if !h.verify(password, d.password) then Failure(InvalidCredentials)
      else if !OptionOr(d.isActive, true) then Failure(AccountDeactivated)
      else
        match DecodeUser(d)
        case Failure(e) => Failure(AuthenticationFailed(e))
        case Success(user) => Success(user)
  }

  /** A wrong password for a known user is indistinguishable from an unknown username. */
  lemma WrongPasswordLooksLikeUnknownUser(users: seq<UserDoc>, name: string, password: string, h: Hasher)
    requires UsernameTaken(users, name)
    requires !h.verify(password, users[FindByUsername(users, name).value].password)
    ensures Authenticate(users, name, password, h) == Authenticate([], name, password, h)
  {
  }

  /**
   * Registration and authentication fit together: an active user who has just
   * registered can log in with the password they chose, and gets back their
   * account with the stored hash in place of the password.
   */
  lemma RegisterThenAuthenticate(users: seq<UserDoc>, u: User, h: Hasher, salt: nat)
    requires Sound(h)
    requires RegisterUser(users, u, h, salt).Success?
    requires u.isActive
    ensures Authenticate(RegisterUser(users, u, h, salt).value, u.username, u.password, h)
         == Success(u.(password := h.hash(u.password, salt)))
  {
    var users' := RegisterUser(users, u, h, salt).value;
    var i := |users|;
    assert users'[i].username == u.username;
    assert UsernameTaken(users', u.username);
    var found := FindByUsername(users', u.username);
    assert found == Some(i);
    assert h.verify(u.password, h.hash(u.password, salt));
  }
}

=== FILE: winners.dfy ===
/**
 * The winner announcements of utils/WinnerAnnouncementUtils.java: which
 * auctions are announced, whether each has a winner, how many earlier bids
 * are shown, and which roles trigger the expiry sweep that produces them.
 *
 * Product and user lookups become parameters; the printed text is left out,
 * so an announcement records only what it decides.
 */
module Winners {
  import opened Wrappers
  import opened Auctions
  import opened AuctionService

  /** The number of bids the recent-bid history shows at most. */
  const RecentBidLimit: nat := 3

  /** What `displayWinnerAnnouncement` reports for one auction. */
  datatype Announcement =
    | ProductMissing
    | WinnerAnnounced(winner: UserId, winningBid: Money, totalBids: int)
    | NoWinner
    | DisplayFailed   // a missing product id or end time is dereferenced and the handler reports an error

  /**
   * `displayWinnerAnnouncement(auction)`: nothing to say about an auction
   * whose product is gone; otherwise a winner exactly when a bidder is
   * recorded and the highest bid is above the starting price. Whether the
   * product lookup found a product is the parameter `productFound`.
   */
  function Announce(a: Auction, productFound: bool): (r: Announcement)
    ensures r.DisplayFailed? <==> a.productId.None? || (productFound && a.endTime.None?)
    ensures r.ProductMissing? <==> a.productId.Some? && !productFound
    ensures a.productId.Some? && productFound && a.endTime.Some? ==> (r.WinnerAnnounced? <==> HasWinningBid(a))
    ensures r.WinnerAnnounced? ==>
      && Some(r.winner) == a.currentHighestBidderId
      && r.winningBid == a.currentHighestBid > a.startingPrice
      && r.totalBids == a.totalBids
  {
    if a.productId.None? then DisplayFailed
    else if !productFound then ProductMissing
    else if a.endTime.None? then DisplayFailed
    else if a.currentHighestBidderId.Some? && a.currentHighestBid > a.startingPrice then
      WinnerAnnounced(a.currentHighestBidderId.value, a.currentHighestBid, a.totalBids)
    else NoWinner
  }

  /** What `displaySimpleWinnerNotification` reports. */
  datatype Notice = WinnerNotice(winner: UserId, amount: Money) | NoWinnerNotice | NoticeFailed

  /**
   * The one-line notification: the same winner rule, whether or not the
   * product is found; only a missing product id makes it fail.
   */
  function SimpleNotification(a: Auction): (r: Notice)
    ensures r.NoticeFailed? <==> a.productId.None?
    ensures a.productId.Some? ==> (r.WinnerNotice? <==> HasWinningBid(a))
    ensures r.WinnerNotice? ==> Some(r.winner) == a.currentHighestBidderId && r.amount == a.currentHighestBid
  {
    if a.productId.None? then NoticeFailed
    else if a.currentHighestBidderId.Some? && a.currentHighestBid > a.startingPrice
    then WinnerNotice(a.currentHighestBidderId.value, a.currentHighestBid)
    else NoWinnerNotice
  }

  /** The full announcement and the one-line notification name the same winner. */
  lemma AnnouncementsAgree(a: Auction)
    requires a.productId.Some? && a.endTime.Some?
    ensures Announce(a, true).WinnerAnnounced? <==> SimpleNotification(a).WinnerNotice?
    ensures Announce(a, true).WinnerAnnounced? ==> Announce(a, true).winner == SimpleNotification(a).winner
  {
  }

  /** An auction whose highest bid is still the starting price has no winner, whoever is recorded. */
  lemma StartingPriceMeansNoWinner(a: Auction)
    requires a.productId.Some? && a.endTime.Some? && a.currentHighestBid == a.startingPrice
    ensures Announce(a, true) == NoWinner && SimpleNotification(a) == NoWinnerNotice
  {
  }

  /**
   * `displayRecentBids`: with more than one bid, the first bids of the
   * listing (newest first), stopping after three; otherwise none.
   */
  method RecentBids(bids: seq<Bid>) returns (shown: seq<Bid>)
    ensures |bids| <= 1 ==> shown == []
    ensures |bids| > 1 ==> |shown| == if |bids| < RecentBidLimit then |bids| else RecentBidLimit
    ensures shown == bids[..|shown|]
  {
    shown := [];
    if |bids| > 1 {
      var count := 0;
      while count < |bids| && count < RecentBidLimit
        invariant 0 <= count <= |bids| && count <= RecentBidLimit
        invariant shown == bids[..count]
      {
        shown := shown + [bids[count]];
        count := count + 1;
      }
    }
  }

  /** The roles whose dashboards run the sweep and show its announcements. */
  predicate SeesAnnouncements(role: Option<string>) {
    role == Some("ADMIN") || role == Some("BUYER")
  }

  /**
   * `showPendingWinnerAnnouncements(role)`: for an admin or a buyer, the
   * sweep closes every auction due for closing and reports each one; for any
   * other role nothing happens.
   */
  function ShowPendingAnnouncements(role: Option<string>, s: Store, now: Time): (r: Sweep)
    ensures !SeesAnnouncements(role) ==> r.store == s && r.completed == map[]
    ensures SeesAnnouncements(role) ==>
      && r.store.auctions.Keys == s.auctions.Keys && r.store.bids == s.bids
      && r.completed.Keys == (set id | id in s.auctions && DueForClosing(s.auctions[id], now))
      && (forall id :: id in r.completed ==> IsClosed(r.store.auctions[id]))
      && (forall id :: id in r.completed ==> r.completed[id] == Close(s.auctions[id]) && r.store.auctions[id] == r.completed[id])
      && (forall id :: id in s.auctions && id !in r.completed ==> r.store.auctions[id] == s.auctions[id])
  {
    if SeesAnnouncements(role) then CheckAndGetNewlyCompleted(s, now) else Sweep(s, map[])
  }

  /** A seller's dashboard never closes an auction. */
  lemma SellerSweepsNothing(s: Store, now: Time)
    ensures ShowPendingAnnouncements(Some("SELLER"), s, now).store == s
  {
  }

  /**
   * Every auction the sweep reports was past its end time, so the
   * announcement names a winner exactly when `getWinnerId()` does.
   */
  lemma AnnouncedWinnerIsWinnerId(role: Option<string>, s: Store, now: Time, id: AuctionId)
    requires id in ShowPendingAnnouncements(role, s, now).completed
    ensures var a := ShowPendingAnnouncements(role, s, now).completed[id];
      && a.endTime.Some?
      && (a.productId.Some? ==> (Announce(a, true).WinnerAnnounced? <==> WinnerId(a, now).Some?))
      && (a.productId.Some? && WinnerId(a, now).Some? ==> WinnerId(a, now) == Some(Announce(a, true).winner))
  {
    var a := ShowPendingAnnouncements(role, s, now).completed[id];
    assert DueForClosing(s.auctions[id], now);
    assert a == Close(s.auctions[id]);
  }
}

=== FILE: wrappers.dfy ===
/** Option and Result, the failure-carrying types every module of the model returns. */
module Wrappers {

  /** A value that may be absent: Java's nullable references. */
  datatype Option<+T> = None | Some(value: T)

  /** Either a value or the error a Java method would have thrown instead. */
  datatype Result<+T, +E> = Success(value: T) | Failure(error: E) {

    predicate IsFailure() {
      Failure?
    }

    function PropagateFailure<U>(): Result<U, E>
      requires Failure?
    {
      Failure(error)
    }

    function Extract(): T
      requires Success?
    {
      value
    }
  }
}
